=== FILE: README.md ===
# hlf-sync core, modelled in Dafny

hlf-sync follows a Hyperledger Fabric channel and mirrors the world state its
chaincodes write into a search or SQL store. This project models its core:

- **the transformation** (`pkg/transformation/transformation.go`). A decoded
  block becomes an extraction response. That is two maps from primary key to
  document: `toAdd` for the writes and `toRemove` for the deletes. The
  documents carry the reserved fields `_fabric_id`, `_fabric_txid` and
  `_fabric_date`. Composite keys are normalised: NUL separators are trimmed
  from both ends and the inner ones become `__`. `merge` and
  `BlocksToDocuments` combine the responses of a batch of blocks.
- **the sync command** (`cmd/sync.go`):
  - the channel height and the target peers, both derived from peer discovery;
  - the start block, read from the checkpoint or taken from `--block-number`;
  - the catch-up branch, whose loop is commented out, so it only logs;
  - the tailing loop. It fetches the blocks from the cursor up to the height,
    stores them, and then records the height as the checkpoint.
- **the three sinks** (`pkg/listener/`). Each one turns a response into what
  it sends:
  - Meilisearch: one `AddOrUpdate` call, then one `Deletes` call.
  - SQL: batched upserts, then one delete statement.
  - Elasticsearch: one NDJSON `_bulk` body.

Modules, one per file:

| module | file | contents |
|---|---|---|
| `Wrappers` | `wrappers.dfy` | `Option` and `Result` |
| `Json` | `json.dfy` | JSON values and the codec (`json.Unmarshal` / `json.Marshal` as function parameters) |
| `Decimal` | `decimal.dfy` | `strconv.Itoa` / `strconv.Atoi` and the 64-bit bounds |
| `Documents` | `documents.dfy` | reserved fields, key normalisation, building one document |
| `Blocks` | `blocks.dfy` | decoded blocks, `BlockToDocuments` shaped like the source's loops |
| `WriteOrder` | `write_order.dfy` | a flattened reference definition of `BlockToDocuments`, last-write-wins, provenance |
| `Batches` | `batches.dfy` | `merge`, `BlocksToDocuments`, and the evicting merge |
| `Peers` | `peers.dfy` | `getChannelHeight`, `getTargetPeers` |
| `Sync` | `sync.dfy` | start block, startup, the tailing step, and the loop's checkpoint safety |
| `Listener` | `listener.dfy` | what the sinks share: Go map iteration order and the system-chaincode filter |
| `Meilisearch`, `Sql`, `Elasticsearch` | `meilisearch.dfy`, `sql.dfy`, `elasticsearch.dfy` | the sinks |

Some things are not computed by the model. They enter as inputs:

- JSON parsing and marshalling are the two functions of a `JsonCodec`.
- Go's map iteration order is an `Enumerator`: any function that lists each
  map's keys exactly once.
- Each sink call, query and checkpoint write comes with its success or its
  reply as an input.

Every property below holds for every codec, every iteration order and every
outcome.

Two behaviours of the code are worth stating up front:

- `merge` does not evict a key from the opposite map, so after a batch merge
  a key can be both added and removed (see Findings).
- `getChannelHeight` returns 0 when discovery lists no peers; it does not
  fail.

## Model

| member | source | states |
|---|---|---|
| Decimal.Itoa | cmd/sync.go:295 | the checkpoint text is a minus sign exactly for negative numbers, followed by decimal digits |
| Decimal.Atoi | cmd/sync.go:184 | what parses lies in the int64 range and is an optionally signed run of digits, negative only after a `-` |
| Decimal.AtoiAccepts | cmd/sync.go:184 | exactly the texts with an optional sign, then a non-empty run of digits whose value fits the int64 range on that side of zero, parse; their value is the digits' value, negated after a `-` |
| Decimal.AtoiExamples | cmd/sync.go:184 | a leading `+` and leading zeros are accepted; an empty text or a lone sign is not |
| Decimal.AtoiItoa | cmd/sync.go:184-189 | reading back a checkpoint written with `Itoa` gives the same number for every int64 |
| Decimal.AtoiRejectsNonNumeric | cmd/sync.go:184-187 | text with a non-digit after its first character does not parse |
| Documents.TrimNul | pkg/transformation/transformation.go:126-127 | the result is the key with a run of NULs removed from each end, and it neither starts nor ends with NUL |
| Documents.ReplaceNul | pkg/transformation/transformation.go:128 | no NUL is left, and keys without NUL are unchanged |
| Documents.NormalizeKey | pkg/transformation/transformation.go:126-128 | a primary key never contains NUL, and a plain key is its own primary key |
| Documents.NormalizeKeyIdempotent | pkg/transformation/transformation.go:126-129 | normalising a primary key again changes nothing |
| Documents.NormalizeCompositeKey | pkg/transformation/transformation.go:126-128 | a key made of NUL-free parts separated by NUL and wrapped in any number of NULs, its first and last parts not empty, becomes the parts joined by `__`; empty inner parts are kept |
| Documents.JoinFirst | pkg/transformation/transformation.go:126-128 | a joined key starts with its first part |
| Documents.JoinLast | pkg/transformation/transformation.go:126-128 | a joined key ends with its last part |
| Documents.NormalizeKeyExample | pkg/transformation/transformation.go:126-128 | `"\0K1\0K2\0"` becomes `K1__K2` and `K1` stays `K1` |
| Documents.NormalizeKeyEmptyMiddle | pkg/transformation/transformation.go:126-128 | an empty inner part leaves two `__` side by side |
| Documents.NormalizeKeyNotInjective | pkg/transformation/transformation.go:126-129 | the distinct raw keys `a\0b` and `a__b` share one primary key, so they overwrite each other in a response |
| Documents.BaseData | pkg/transformation/transformation.go:116-123 | a JSON object is kept; anything else that is not `null` becomes `{"value": text}`; `null` leaves no map |
| Documents.InjectReserved | pkg/transformation/transformation.go:124-129 | the three reserved fields hold the transaction id, the date and the key, whatever the chaincode wrote there; other fields are unchanged |
| Documents.StripInjected | pkg/transformation/transformation_test.go:58-62 | deleting the reserved fields gives back the chaincode's object when that object does not use those names |
| Documents.BuildDocument | pkg/transformation/transformation.go:116-138 | a write yields a document exactly when its value is not `null`; the document carries the normalised key, the namespace and the transaction's metadata, and its data repeats key, id and date |
| Documents.BuildPlainKey | pkg/transformation/transformation.go:116-138 | a write whose key has no NUL is stored under that very key, with the write's data plus the reserved fields |
| Blocks.TruncDiv | pkg/transformation/transformation.go:94 | Go's division: the quotient truncates toward zero and the remainder has the sign of the dividend |
| Blocks.Place | pkg/transformation/transformation.go:139-145 | a delete puts the key in `toRemove` and takes it out of `toAdd`, a write the reverse; every other key is untouched; the response stays well formed |
| Blocks.PlaceWrites | pkg/transformation/transformation.go:115-146 | the write loop fails exactly when some value is `null` (the nil-map panic) and preserves well-formedness |
| Blocks.PlaceWritesStep | pkg/transformation/transformation.go:115-146 | one turn of the write loop places the first write's document and continues with the rest |
| Blocks.PlaceNamespaces | pkg/transformation/transformation.go:112-147 | the namespace loop fails only with the nil-map panic and preserves well-formedness |
| Blocks.PlaceEntry | pkg/transformation/transformation.go:69-156 | a decode failure aborts the block, every header type except endorser transactions is ignored, a failed action extraction is skipped and a bad read/write set aborts |
| Blocks.PlaceEntries | pkg/transformation/transformation.go:69-157 | the entry loop preserves well-formedness |
| Blocks.BlockToDocuments | pkg/transformation/transformation.go:63-159 | an empty block gives two empty maps; every response is well formed: disjoint maps, each keyed by its documents' primary keys |
| WriteOrder.CollectAt | pkg/transformation/transformation.go:115-138 | the `i`-th collected placement holds the document built from the `i`-th write and that write's delete flag |
| WriteOrder.CollectLength | pkg/transformation/transformation.go:115-138 | a successful collection holds exactly one placement per write |
| WriteOrder.WriteDocsAt | pkg/transformation/transformation.go:115-138 | the reference list of a namespace holds one document per write, the `i`-th built from the `i`-th write with its delete flag |
| WriteOrder.WriteDocsProvenance | pkg/transformation/transformation.go:115-138 | every document listed for a namespace comes from one of its writes, with that write's delete flag |
| WriteOrder.PlaceWritesIsFold | pkg/transformation/transformation.go:115-146 | the write loop equals placing the reference documents one after another |
| WriteOrder.PlaceNamespacesIsFold | pkg/transformation/transformation.go:112-147 | the namespace loop equals placing the concatenated reference documents |
| WriteOrder.PlaceEntryIsFold | pkg/transformation/transformation.go:95-155 | the header-type switch equals placing the entry's reference documents |
| WriteOrder.PlaceEntriesIsFold | pkg/transformation/transformation.go:69-157 | the entry loop equals placing all of the block's reference documents |
| WriteOrder.BlockToDocumentsIsFold | pkg/transformation/transformation.go:63-159 | `BlockToDocuments` places the block's writes in transaction, namespace and write order, or fails as the reference does |
| WriteOrder.PlaceAllAppend | pkg/transformation/transformation.go:139-145 | placing two runs of documents is placing the first, then the second |
| WriteOrder.BlockDocsAppend | pkg/transformation/transformation.go:69-157 | the reference documents of two runs of entries are the two lists concatenated, or the first failure |
| WriteOrder.LastWriteWins | pkg/transformation/transformation.go:139-145 | after placing documents, a key is in exactly the map chosen by its last write, bound to that write's document; an unwritten key keeps what it had |
| WriteOrder.BlockLastWriteWins | pkg/transformation/transformation.go:112-146 | in a block's response every key is in the map its last write chooses, with that document, and unwritten keys are in neither map |
| WriteOrder.InertEntryIgnored | pkg/transformation/transformation.go:95-106 | dropping an ignored entry from a block does not change its response |
| WriteOrder.FatalEntryAborts | pkg/transformation/transformation.go:71-111 | a block holding an undecodable entry or a bad read/write set has no response |
| WriteOrder.BlockProvenance | pkg/transformation/transformation.go:112-145 | every document in a response was built from a write of an endorser transaction of that block, with a matching delete flag |
| WriteOrder.ProducedByMetadata | pkg/transformation/transformation.go:130-138 | a produced document carries the block number, channel, transaction id and millisecond date of its transaction |
| WriteOrder.MappingExample | pkg/transformation/transformation_test.go:13-66 | the repository's mapping scenario: K1 is the only added key and K2 the only removed key, with the transaction's id and channel, and K1's data without reserved fields is the object written |
| WriteOrder.MappingDocs | pkg/transformation/transformation_test.go:25-62 | the two writes of the mapping scenario build the expected documents |
| WriteOrder.MappingWrites | pkg/transformation/transformation_test.go:25-62 | the loop over the scenario's two writes adds K1 and removes K2 |
| WriteOrder.SingleWriteSetBlock | pkg/transformation/transformation.go:102-147 | a block of one endorser transaction with one write set is that write set's loop |
| WriteOrder.PlaceTwo | pkg/transformation/transformation_test.go:53-54 | a write of K1 and a delete of K2 give one added key and one removed key |
| Batches.LastHolding | pkg/transformation/transformation.go:38-42 | the last map holding a key holds it, and no later map does |
| Batches.MergeSpec | pkg/transformation/transformation.go:36-44 | `merge` holds exactly the keys of its maps, each bound to its value in the last map holding it |
| Batches.MergeKeys | pkg/transformation/transformation.go:36-44 | a key is in the merge exactly when some map holds it |
| Batches.MergeTwo | pkg/transformation/transformation.go:36-44 | merging two maps is the right-biased union |
| Batches.MergeAppend | pkg/transformation/transformation.go:36-44 | merging a concatenation is the union of the two merges |
| Batches.MergeBlocks | pkg/transformation/transformation.go:51-58 | the fold fails exactly when some block's transformation fails |
| Batches.BlocksToDocuments | pkg/transformation/transformation.go:45-61 | no blocks give two empty maps, and any failing block fails the batch |
| Batches.PerBlock | pkg/transformation/transformation.go:51-55 | on success, one response per block, each that block's transformation |
| Batches.MergeBlocksIsUnion | pkg/transformation/transformation.go:51-58 | the fold returns the first block error, or the accumulated maps unioned with the merge of the blocks' add maps and, separately, of their remove maps |
| Batches.BatchIsIndependentUnion | pkg/transformation/transformation.go:45-61 | the batch's add map merges the blocks' add maps and its remove map merges their remove maps, independently of each other |
| Batches.StaleDispositionKept | pkg/transformation/transformation.go:56-57 | a key removed by one block and added by a later one (or the reverse) ends up in both maps of the batch |
| Batches.TwoBlocksMerge | pkg/transformation/transformation.go:45-61 | a batch of two blocks unites their added maps and their removed maps, the second block winning on shared keys |
| Batches.TwoBlocksEvicting | pkg/transformation/transformation.go:45-61 | under the evicting merge, a batch of two blocks is the second block's response laid over the first |
| Batches.MergeEvictingWellFormed | pkg/transformation/transformation.go:56-57 | the evicting merge of well-formed responses is well formed |
| Batches.MergeEvictingSpec | pkg/transformation/transformation.go:56-57 | per key, the later response decides: a key it adds or removes takes that disposition and document, and other keys keep theirs |
| Batches.MergeBlocksEvicting | pkg/transformation/transformation.go:51-58 | the evicting fold fails exactly when some block fails |
| Batches.MergeBlocksEvictingWellFormed | pkg/transformation/transformation.go:51-58 | the evicting fold keeps every key under its document's primary key |
| Batches.BlocksToDocumentsEvicting | pkg/transformation/transformation.go:45-61 | the corrected batch fails like the original, and no key is ever in both maps |
| Batches.PlaceAllIsEvictingMerge | pkg/transformation/transformation.go:139-145 | placing a block's writes on top of earlier results is the evicting merge of that block's own response |
| Batches.MergeBlocksEvictingIsFold | pkg/transformation/transformation.go:51-58 | the evicting fold over blocks equals placing all of the batch's writes in block order |
| Batches.BatchLastWriteWins | pkg/transformation/transformation.go:45-61 | with the evicting merge, for each key the last write across the whole batch decides the single map that holds it |
| Batches.SingleBlockBatch | pkg/transformation/transformation.go:45-61 | a batch of one block is that block's response, under either merge |
| Batches.OneWrite | pkg/transformation/transformation.go:112-146 | a block holding one write yields that one key in the map its delete flag chooses, with chaincode `cc` |
| Batches.DeleteThenReAdd | pkg/transformation/transformation.go:56-57 | deleting K in block 1 and writing it in block 2 leaves K in both maps of the batch |
| Batches.DeleteThenReAddEvicting | pkg/transformation/transformation.go:56-57 | with the evicting merge the same batch only adds K |
| Peers.MaxHeight | cmd/sync.go:81-87 | the greatest ledger height reported, attained by some peer, and 0 for no peers |
| Peers.HeightFold | cmd/sync.go:80-87 | the height loop ends at the larger of its start and the greatest height minus one |
| Peers.ChannelHeight | cmd/sync.go:71-90 | the channel height is the greatest ledger height minus one (0 without peers), and no peer is more than one block above it |
| Peers.Fresh | cmd/sync.go:61-68 | a peer is kept exactly when it is fewer than 1000 blocks behind the height |
| Peers.FreshIsSubsequence | cmd/sync.go:61-68 | the kept peers keep their discovery order |
| Peers.TargetPeers | cmd/sync.go:48-70 | a failed query is an error; otherwise the targets are, in order, exactly the peers fewer than 1000 blocks behind the channel height |
| Peers.HighestPeerIsTarget | cmd/sync.go:61-68 | a peer of the greatest height is always a target |
| Peers.LaggingPeerDropped | cmd/sync.go:65 | a peer 1000 or more blocks behind the height is not a target |
| Sync.WrapInt64 | cmd/sync.go:189 | Go `int` arithmetic: the result is in the int64 range and congruent to the exact value modulo 2^64 |
| Sync.WrapInt64InRange | cmd/sync.go:189 | values already in range are unchanged |
| Sync.StartBlock | cmd/sync.go:170-196 | a `--block-number` of 0 or more wins; otherwise a missing or unparsable checkpoint starts at 0, a stored `n` resumes at `n + 1`, and the largest int64 wraps to the smallest |
| Sync.RestartResumesAfter | cmd/sync.go:184-189 | a checkpoint written for height `h` makes the next run start at `h + 1` |
| Sync.GarbledCheckpointStartsAtZero | cmd/sync.go:184-187 | a checkpoint that is not a number starts from block 0 |
| Sync.Startup | cmd/sync.go:205-215 | startup fails exactly when discovery fails; otherwise it fixes the target peers and the start block, and it logs catch-up exactly when the wrapped distance from the start to the height exceeds one block |
| Sync.CatchUpIsInert | cmd/sync.go:214-259 | however far behind the run starts, the loop begins in the same state: the catch-up branch does nothing |
| Sync.CatchUpDistanceWraps | cmd/sync.go:184-215 | a checkpoint of the largest int64 restarts at the smallest, and the wrapped distance is then negative, so catch-up is not logged whatever the height |
| Sync.WrapAboveRange | cmd/sync.go:214 | a value past the top of the int64 range wraps to itself minus 2^64 |
| Sync.BlockRange | cmd/sync.go:275 | the blocks fetched are the cursor up to the height inclusive, ascending, and none when the height is below the cursor |
| Sync.Step | cmd/sync.go:262-307 | a failed height query, block query or store halts with nothing changed; at the cursor's height nothing happens; otherwise the range is stored and the cursor moves to the height; blocks are queried from the startup targets, and below the cursor none are; the checkpoint changes only to the text of the new cursor after a successful store |
| Sync.QueriesGoToStartupTargets | cmd/sync.go:205-276 | every block query of the loop goes to the target peers chosen at startup |
| Sync.NextFetchRepeatsLastBlock | cmd/sync.go:275-293 | after storing up to height `h`, the next step fetches block `h` again |
| Sync.HeightBelowCursor | cmd/sync.go:275-293 | a height below the cursor fetches nothing and still moves the cursor down to it |
| Sync.AdvanceIsSafe | cmd/sync.go:287-301 | one step keeps the invariant: every block from the start to the cursor, and to the saved checkpoint, has been stored |
| Sync.RunIsSafe | cmd/sync.go:262-307 | the invariant holds after any sequence of steps |
| Sync.RestartSkipsOnlyStoredBlocks | cmd/sync.go:287-296 | after any run, the checkpoint is the startup one or covers only stored blocks, and a restart resumes right after the saved height |
| Listener.EnumerationExists | pkg/listener/meilisearch.go:83 | every map has an iteration order, so the sinks' preconditions can be met |
| Listener.EnumeratesCons | pkg/listener/meilisearch.go:83 | a key followed by an order of the remaining keys is an order of the whole map |
| Listener.Order | pkg/listener/meilisearch.go:83 | a chosen iteration order of any map of documents |
| Listener.ValidEnumeratorExists | pkg/listener/meilisearch.go:83 | some enumerator lists every map's keys exactly once, so the sinks that take one can be called |
| Listener.KeptKeys | pkg/listener/meilisearch.go:83-92 | the keys kept are, in iteration order and without repeats, exactly those whose document is not from `lscc` or `_lifecycle` |
| Listener.KeptPrimaryKeys | pkg/listener/meilisearch.go:93-101 | the ids listed are exactly the primary keys of the documents not from a system chaincode |
| Listener.FlattenAppend | pkg/listener/elasticsearch.go:37-39 | writing two runs of lines to a buffer is writing their concatenation |
| Meilisearch.DataOf | pkg/listener/meilisearch.go:87-90 | the documents sent are the data of the listed keys, in order |
| Meilisearch.PlanFor | pkg/listener/meilisearch.go:79-101 | the add list is the data of exactly the added documents not from a system chaincode, without repeats, alongside their primary keys; the delete list is exactly the primary keys of the removed ones not from a system chaincode; the sizes of both maps are kept for the log |
| Meilisearch.DeletesAreKeptKeys | pkg/listener/meilisearch.go:93-101 | with a well-formed response, a key is deleted exactly when it is removed by an ordinary chaincode |
| Meilisearch.AddedDocumentsCarryIndexKey | pkg/listener/meilisearch.go:46-49 | every added document carries its key in `_fabric_id`, the field the index is created with as primary key |
| Meilisearch.StoreDocs | pkg/listener/meilisearch.go:103-126 | at most two calls: `AddOrUpdate` exactly when there is something to add, and `Deletes` after it exactly when there is something to delete and the add succeeded; a failed add returns `AddFailed` and a failed delete `DeleteFailed`; the log is written exactly when neither call failed, and holds the map sizes and the first ten kept primary keys |
| Meilisearch.AddsPrecedeDeletes | pkg/listener/meilisearch.go:103-122 | each kind of call is made at most once, and an add always comes before a delete |
| Meilisearch.LogSample | pkg/listener/meilisearch.go:124 | the sample is the first ten keys of the list, or all of them if there are fewer |
| Meilisearch.LogOf | pkg/listener/meilisearch.go:124-125 | the log reports the number of added and removed documents and the sample of the kept added documents' primary keys |
| Meilisearch.LoggedSampleIsKeptAdds | pkg/listener/meilisearch.go:91-125 | after a successful store the log reports both map sizes and at most ten primary keys, each of an added document not from a system chaincode |
| Meilisearch.StoreResult | pkg/listener/meilisearch.go:145-166 | a transformation error returns before any call; otherwise the calls are those of the response's plan |
| Meilisearch.Store | pkg/listener/meilisearch.go:156-166 | a block that does not transform makes no call and returns the error |
| Meilisearch.StoreBulk | pkg/listener/meilisearch.go:145-155 | a failing batch makes no call; an empty batch makes no call, succeeds and logs zero documents |
| Meilisearch.StoreBulkOfOneBlock | pkg/listener/meilisearch.go:145-166 | storing a batch of one block makes the same calls as storing that block |
| Meilisearch.KeyInBothMapsIsDeletedLast | pkg/listener/meilisearch.go:103-122 | a key in both maps is sent to `AddOrUpdate` and then to `Deletes`, so the index ends without it |
| Meilisearch.ReAddedDocumentIsDeleted | pkg/listener/meilisearch.go:145-155 | storing the delete-then-write batch deletes K from the index, although the ledger's last write keeps it |
| Meilisearch.StoreBulkEvicting | pkg/listener/meilisearch.go:145-155 | the corrected batch fails the same way, and an empty one makes no call and logs zero documents |
| Meilisearch.AddsOnly | pkg/listener/meilisearch.go:103-112 | a response that only adds makes exactly one call, the add |
| Meilisearch.ReAddedDocumentKept | pkg/listener/meilisearch.go:145-155 | with the evicting merge, the same batch only adds K |
| Sql.NewDatabaseStorage | pkg/listener/sql.go:39-86 | only the `postgres` and `mysql` drivers open; the table is named after the channel; an open or migration failure is an error |
| Sql.Chunks | pkg/listener/sql.go:112 | the rows are cut into non-empty batches of at most 100, all full but the last |
| Sql.ChunksFlatten | pkg/listener/sql.go:112 | batching loses, duplicates and reorders no row |
| Sql.Records | pkg/listener/sql.go:92-109 | one record per listed document (primary key, chaincode, marshalled data), or a marshal error for the first document whose data does not marshal |
| Sql.Upserts | pkg/listener/sql.go:110-112 | one upsert per batch, each of 1 to 100 rows |
| Sql.UpsertRows | pkg/listener/sql.go:110-112 | the upserts together carry the batches' rows in order |
| Sql.RowsOfAppend | pkg/listener/sql.go:110-113 | the rows of two runs of statements are the two runs' rows concatenated |
| Sql.StoreDocs | pkg/listener/sql.go:88-117 | a marshal error returns before any statement, and it happens exactly when some added document not from a system chaincode does not marshal; otherwise the upsert batches run, followed by a delete of an empty id list, and the result is success |
| Sql.KeptMarshalFailure | pkg/listener/sql.go:92-99 | a skipped system-chaincode document never causes the marshal error; every other document that fails to marshal does |
| Sql.UpsertedRows | pkg/listener/sql.go:92-112 | every added document not from a system chaincode is upserted under its primary key and chaincode, and no system chaincode's document is |
| Sql.UpsertedRecords | pkg/listener/sql.go:92-112 | the upserted rows, batch after batch, are the kept added documents' records in iteration order |
| Sql.RemovalsIgnored | pkg/listener/sql.go:88-117 | two responses that add the same documents make the same statements, whatever they remove |
| Sql.StoreDocsCorrected | pkg/listener/sql.go:113 | with the id list filled, the delete names exactly the removed documents' primary keys not from a system chaincode, and the errors are unchanged |
| Sql.CorrectedKeepsUpserts | pkg/listener/sql.go:92-113 | the correction changes only the final delete: the upserts and their rows are those of the original |
| Sql.RemovalReachesTableOnlyWhenCorrected | pkg/listener/sql.go:88-113 | the primary key of a removed document is missing from the original delete and present in the corrected one |
| Sql.StoreResult | pkg/listener/sql.go:120-141 | a transformation error returns before any statement; otherwise the statements are those of `storeDocs` |
| Sql.Store | pkg/listener/sql.go:131-141 | a block that does not transform runs no statement and returns the error |
| Sql.StoreBulk | pkg/listener/sql.go:120-130 | a failing batch runs no statement; an empty batch still runs the empty delete |
| Sql.StoreBulkOfOneBlock | pkg/listener/sql.go:120-141 | storing a batch of one block makes the same statements as storing that block |
| Elasticsearch.IndexName | pkg/listener/elasticsearch.go:25-29 | the index is the channel, an underscore, then the chaincode |
| Elasticsearch.AddItems | pkg/listener/elasticsearch.go:24-40 | in iteration order, each added document contributes its `index` action line and then its marshalled data plus a newline; the first marshal failure is the error |
| Elasticsearch.ItemsTextEmpty | pkg/listener/elasticsearch.go:58 | the buffer is empty exactly when no item was written |
| Elasticsearch.ItemsTextAppend | pkg/listener/elasticsearch.go:37-39 | writing two runs of items to the buffer is writing their concatenation |
| Elasticsearch.ItemTextInside | pkg/listener/elasticsearch.go:37-39 | each item's text occurs in the buffer |
| Elasticsearch.DeleteLines | pkg/listener/elasticsearch.go:42-55 | one `delete` action line per removed document, naming its index and id |
| Elasticsearch.DeleteLinesEmpty | pkg/listener/elasticsearch.go:49-54 | the delete lines are empty exactly when nothing is removed |
| Elasticsearch.BulkBody | pkg/listener/elasticsearch.go:23-40 | the body fails exactly when some added document does not marshal, and is empty exactly when nothing is added; otherwise it is the items' text in iteration order; system chaincodes are not filtered |
| Elasticsearch.EveryAddIsIndexed | pkg/listener/elasticsearch.go:24-40 | every added document's index line, data and newline occur together in the body |
| Elasticsearch.BodyIgnoresRemovals | pkg/listener/elasticsearch.go:42-55 | two responses that add the same documents send the same body, whatever they remove |
| Elasticsearch.BulkBodyCorrected | pkg/listener/elasticsearch.go:42-55 | the corrected body is the original followed by every delete line, and is empty only when nothing is added or removed |
| Elasticsearch.RemovalsOnlyAreNeverSent | pkg/listener/elasticsearch.go:42-58 | a response that only removes documents sends no request, while the corrected body sends one |
| Elasticsearch.Send | pkg/listener/elasticsearch.go:58-74 | an empty body sends nothing and succeeds; otherwise the body is sent, and any reply but acceptance is an error |
| Elasticsearch.StoreResult | pkg/listener/elasticsearch.go:18-77 | a transformation or marshal error returns before any request, a response with nothing to add sends nothing, and otherwise the body is sent and the reply decides the result |
| Elasticsearch.StoreResultCorrected | pkg/listener/elasticsearch.go:42-75 | with the corrected body, any response that adds or removes something sends a request |
| Elasticsearch.Store | pkg/listener/elasticsearch.go:84-142 | a block that does not transform sends nothing and returns an error |
| Elasticsearch.StoreBulk | pkg/listener/elasticsearch.go:18-77 | a failing batch sends nothing; an empty batch sends nothing and succeeds |
| Elasticsearch.StoreBulkOfOneBlock | pkg/listener/elasticsearch.go:18-142 | storing a batch of one block sends the same request as storing that block |

## Left out

- Protobuf decoding of envelopes, payloads, channel headers, timestamps,
  actions and read/write sets. A block arrives already decoded into entries.
  Each decode failure appears at the point where the source returns it.
- The source unmarshals the channel header twice (`UnmarshalChannelHeader`
  and `proto.Unmarshal`). The model has one header.
- A payload without a header is a nil dereference in the source. It is not
  modelled.
- Blocks.MillisOf: `UnixNano` is only defined for dates between the years
  1678 and 2262. The model divides the given nanosecond count exactly.
- Peers.Peer: the ledger height is a `nat`. This leaves out the
  `uint64`-to-`int` cast. The block number cast is left out in the same way.
- Json.Json: numbers are integers. Go decodes the numbers of a stored value
  as `float64`, so their rounding when large is not modelled. Bytes and Go
  strings are both Dafny strings.
- `createIndex`, `waitForUpdate` and the ranking-rule update
  (`pkg/listener/meilisearch.go:33-71` and `:129-143`) talk to the server.
  They are not modelled. On the not-found path, `createIndex` reads
  `index.Name` from the nil result of the failed lookup (line 58).
- Meilisearch.StoreDocs: a failed call and a failed wait for the update are
  the same input.
- Elasticsearch.Send: an error reply whose `error` field is not an object
  makes the source's type assertion panic. The model treats every error
  reply as well formed.
- Sql.StoreDocs: gorm statement semantics, conflict handling and statement
  errors are not modelled. The source ignores those errors. The statements
  issued are the output.
- Peers.TargetPeers: `getTargetPeers` and `getChannelHeight` each query
  discovery. The model assumes the queries return the same list.
- Sync.Step:
  - A failed block query halts the step with nothing stored. `requested`
    lists the whole range, whereas the source stops at the failing block.
  - The 10-second sleeps, the goroutine, `select {}` and the opening of the
    sink and the SDK are not modelled.
  - `log.Fatalf` is a halt.
- Sync.Startup: opening the checkpoint database is left out. So are the
  provider and driver switch of the command, and the ledger client
  (`cmd/sync.go:96-169` and `:197-204`).
- Logging is left out, except for the two lines the Meilisearch sink logs
  after a successful store (Meilisearch.LogOf).
- Enumerator: the model fixes one iteration order per map, whereas Go picks a
  fresh order at every `range`. So the equalities of Meilisearch, Sql and
  Elasticsearch StoreBulkOfOneBlock, Elasticsearch.BodyIgnoresRemovals and
  Sql.RemovalsIgnored hold in the program only up to the order of the
  documents, rows and lines.
- `cmd/main.go`, `main.go` and the mocks are not part of this model.

## Findings

| source | as written | input that shows it | evidently intended | confidence | as-written member | corrected member |
|---|---|---|---|---|---|---|
| pkg/transformation/transformation.go:56-57 | the add maps and the remove maps of a batch are merged independently | block 1 deletes K and block 2 writes K again: K is in both maps, and Meilisearch adds it and then deletes it | a later block's write to a key evicts the key from the opposite map, so the last write decides | not executed | Batches.DeleteThenReAdd | Batches.BatchLastWriteWins |
| pkg/listener/elasticsearch.go:49-54 | the delete lines are written to a `buf` declared inside the loop, which shadows the request body | a response that only removes one key sends no request at all | the delete action lines follow the index lines in the bulk body | not executed | Elasticsearch.RemovalsOnlyAreNeverSent | Elasticsearch.BulkBodyCorrected |
| pkg/listener/sql.go:113 | `recordsToRemove` is never filled, so the delete names no id | a response removing key K of chaincode `cc`: K's row stays in the table | delete the primary keys of the removed documents not from a system chaincode | not executed | Sql.RemovalReachesTableOnlyWhenCorrected | Sql.StoreDocsCorrected |

=== FILE: batches.dfy ===
/**
 * `merge` and `BlocksToDocuments` (pkg/transformation/transformation.go):
 * the responses of consecutive blocks combined into one.
 *
 * The source merges the add maps and the remove maps separately, so a key
 * added by one block and removed by a later one (or the reverse) stays in
 * both maps. `BlocksToDocumentsEvicting` is the merge that keeps a later
 * block's disposition of a key and drops the earlier one from the other map.
 */
module Batches {
  import opened Wrappers
  import opened Json
  import opened Documents
  import opened Blocks
  import opened WriteOrder

  // ---------------------------------------------------------------------
  // merge
  // ---------------------------------------------------------------------

  /** The position of the last map holding `k`, or -1. */
  function LastHolding<V>(ms: seq<map<string, V>>, k: string): (i: int)
    ensures -1 <= i < |ms|
    ensures i >= 0 ==> k in ms[i]
    ensures forall j :: i < j < |ms| ==> k !in ms[j]
    decreases |ms|
  {
    if ms == [] then -1
    else if k in ms[|ms| - 1] then |ms| - 1
    else LastHolding(ms[..|ms| - 1], k)
  }

  /** `merge(ms...)`: later maps overwrite earlier ones. */
  function Merge<V>(ms: seq<map<string, V>>): map<string, V>
    decreases |ms|
  {
    if ms == [] then map[] else Merge(ms[..|ms| - 1]) + ms[|ms| - 1]
  }

  /**
   * The merge holds every key of every map, bound to its value in the last
   * map that holds it.
   */
  lemma {:induction false} MergeSpec<V>(ms: seq<map<string, V>>, k: string)
    ensures k in Merge(ms) <==> LastHolding(ms, k) >= 0
    ensures k in Merge(ms) ==> Merge(ms)[k] == ms[LastHolding(ms, k)][k]
    decreases |ms|
  {
    if ms != [] {
      var init := ms[..|ms| - 1];
      MergeSpec(init, k);
      if k !in ms[|ms| - 1] {
        var i := LastHolding(init, k);
        if i >= 0 {
          assert ms[i] == init[i];
        }
      }
    }
  }

  /** A key is in the merge exactly when some map holds it. */
  lemma MergeKeys<V>(ms: seq<map<string, V>>, k: string)
    ensures k in Merge(ms) <==> exists i :: 0 <= i < |ms| && k in ms[i]
  {
    MergeSpec(ms, k);
  }

  /** For two maps, `merge` is the right-biased union. */
  lemma MergeTwo<V>(a: map<string, V>, b: map<string, V>)
    ensures Merge([a, b]) == a + b
  {
    var m := Merge([a, b]);
    assert [a, b][..1] == [a];
    assert [a][..0] == [];
    assert Merge([a]) == a;
    assert Merge([a, b]) == Merge([a]) + b;
  }

  lemma MapUnionAssoc<V>(m1: map<string, V>, m2: map<string, V>, m3: map<string, V>)
    ensures m1 + (m2 + m3) == (m1 + m2) + m3
  {
  }

  lemma {:induction false} MergeAppend<V>(a: seq<map<string, V>>, b: seq<map<string, V>>)
    ensures Merge(a + b) == Merge(a) + Merge(b)
    decreases |b|
  {
    if b == [] {
      assert a + b == a;
      assert Merge(b) == map[];
      assert Merge(a) + map[] == Merge(a);
    } else {
      var b' := b[..|b| - 1];
      var x := b[|b| - 1];
      var ab := a + b;
      assert ab[..|ab| - 1] == a + b' && ab[|ab| - 1] == x;
      MergeAppend(a, b');
      assert Merge(ab) == Merge(a + b') + x;
      assert Merge(b) == Merge(b') + x;
      MapUnionAssoc(Merge(a), Merge(b'), x);
    }
  }

  // ---------------------------------------------------------------------
  // BlocksToDocuments, as written
  // ---------------------------------------------------------------------

  function MergeBlocks(acc: Response, codec: JsonCodec, bs: seq<Block>): (res: Result<Response, BlockError>)
    ensures res.Failure? <==> exists i :: 0 <= i < |bs| && BlockToDocuments(codec, bs[i]).Failure?
    decreases |bs|
  {
    if bs == [] then Success(acc)
    else
      match BlockToDocuments(codec, bs[0])
      case Failure(e) => Failure(e)
      case Success(r) =>
        assert forall i :: 0 < i < |bs| ==> bs[i] == bs[1..][i - 1];
        MergeBlocks(Response(Merge([acc.toAdd, r.toAdd]), Merge([acc.toRemove, r.toRemove])), codec, bs[1..])
  }

  /**
   * `BlocksToDocuments`: an empty list gives two empty maps, any failing
   * block fails the batch, and every map stays keyed by primary key.
   */
  function BlocksToDocuments(codec: JsonCodec, bs: seq<Block>): (res: Result<Response, BlockError>)
    ensures bs == [] ==> res == Success(EmptyResponse)
    ensures res.Failure? <==> exists i :: 0 <= i < |bs| && BlockToDocuments(codec, bs[i]).Failure?
  {
    MergeBlocks(EmptyResponse, codec, bs)
  }

  /** The per-block responses, or the first failure. */
  function PerBlock(codec: JsonCodec, bs: seq<Block>): (res: Result<seq<Response>, BlockError>)
    ensures res.Success? ==> |res.value| == |bs|
    ensures res.Success? ==> forall i :: 0 <= i < |bs| ==> BlockToDocuments(codec, bs[i]) == Success(res.value[i])
    decreases |bs|
  {
    if bs == [] then Success([])
    else
      var r :- BlockToDocuments(codec, bs[0]);
      var rest :- PerBlock(codec, bs[1..]);
      assert forall i :: 0 < i < |bs| ==> bs[i] == bs[1..][i - 1];
      Success([r] + rest)
  }

  function Adds(rs: seq<Response>): seq<map<string, Document>> {
    seq(|rs|, i requires 0 <= i < |rs| => rs[i].toAdd)
  }

  function Removes(rs: seq<Response>): seq<map<string, Document>> {
    seq(|rs|, i requires 0 <= i < |rs| => rs[i].toRemove)
  }

  lemma AddsCons(r: Response, rest: seq<Response>)
    ensures Adds([r] + rest) == [r.toAdd] + Adds(rest)
    ensures Removes([r] + rest) == [r.toRemove] + Removes(rest)
  {
  }

  lemma MergeCons<V>(a: map<string, V>, x: map<string, V>, ms: seq<map<string, V>>)
    ensures a + Merge([x] + ms) == (a + x) + Merge(ms)
  {
    MergeAppend([x], ms);
    assert [x][..0] == [];
    assert Merge([x]) == x;
    MapUnionAssoc(a, x, Merge(ms));
  }

  lemma {:induction false} MergeBlocksIsUnion(acc: Response, codec: JsonCodec, bs: seq<Block>)
    ensures PerBlock(codec, bs).Failure? ==> MergeBlocks(acc, codec, bs) == Failure(PerBlock(codec, bs).error)
    ensures PerBlock(codec, bs).Success? ==>
      var rs := PerBlock(codec, bs).value;
      MergeBlocks(acc, codec, bs) == Success(Response(acc.toAdd + Merge(Adds(rs)), acc.toRemove + Merge(Removes(rs))))
    decreases |bs|
  {
    if bs == [] {
      assert acc.toAdd + map[] == acc.toAdd && acc.toRemove + map[] == acc.toRemove;
    } else {
      var first := BlockToDocuments(codec, bs[0]);
      if first.Success? {
        var r := first.value;
        MergeTwo(acc.toAdd, r.toAdd);
        MergeTwo(acc.toRemove, r.toRemove);
        var acc' := Response(acc.toAdd + r.toAdd, acc.toRemove + r.toRemove);
        assert MergeBlocks(acc, codec, bs) == MergeBlocks(acc', codec, bs[1..]);
        MergeBlocksIsUnion(acc', codec, bs[1..]);
        var tail := PerBlock(codec, bs[1..]);
        if tail.Success? {
          var rest := tail.value;
          assert PerBlock(codec, bs) == Success([r] + rest);
          AddsCons(r, rest);
          MergeCons(acc.toAdd, r.toAdd, Adds(rest));
          MergeCons(acc.toRemove, r.toRemove, Removes(rest));
        }
      }
    }
  }

  /**
   * The batch's add map is the merge of the blocks' add maps and its remove
   * map the merge of their remove maps, each on its own: a key's entry in
   * either map comes from the last block that has it in that map.
   */
  lemma BatchIsIndependentUnion(codec: JsonCodec, bs: seq<Block>)
    ensures PerBlock(codec, bs).Failure? ==> BlocksToDocuments(codec, bs) == Failure(PerBlock(codec, bs).error)
    ensures PerBlock(codec, bs).Success? ==>
      var rs := PerBlock(codec, bs).value;
      BlocksToDocuments(codec, bs) == Success(Response(Merge(Adds(rs)), Merge(Removes(rs))))
  {
    MergeBlocksIsUnion(EmptyResponse, codec, bs);
    var pb := PerBlock(codec, bs);
    if pb.Success? {
      EmptyUnion(Merge(Adds(pb.value)));
      EmptyUnion(Merge(Removes(pb.value)));
    }
  }

  lemma EmptyUnion<V>(m: map<string, V>)
    ensures map[] + m == m
  {
  }

  /** A batch of two blocks, as written: each map is the union of the two blocks' maps. */
  lemma TwoBlocksMerge(codec: JsonCodec, b1: Block, b2: Block)
    requires BlockToDocuments(codec, b1).Success? && BlockToDocuments(codec, b2).Success?
    ensures var r1, r2 := BlockToDocuments(codec, b1).value, BlockToDocuments(codec, b2).value;
      BlocksToDocuments(codec, [b1, b2]) == Success(Response(r1.toAdd + r2.toAdd, r1.toRemove + r2.toRemove))
  {
    var r1, r2 := BlockToDocuments(codec, b1).value, BlockToDocuments(codec, b2).value;
    assert [b1, b2][1..] == [b2] && [b2][1..] == [];
    MergeTwo(map[], r1.toAdd);
    MergeTwo(map[], r1.toRemove);
    EmptyUnion(r1.toAdd);
    EmptyUnion(r1.toRemove);
    MergeTwo(r1.toAdd, r2.toAdd);
    MergeTwo(r1.toRemove, r2.toRemove);
    assert MergeBlocks(EmptyResponse, codec, [b1, b2]) == MergeBlocks(r1, codec, [b2]);
  }

  /** A batch of two blocks with the evicting merge: the second block's response merged over the first's. */
  lemma TwoBlocksEvicting(codec: JsonCodec, b1: Block, b2: Block)
    requires BlockToDocuments(codec, b1).Success? && BlockToDocuments(codec, b2).Success?
    ensures var r1, r2 := BlockToDocuments(codec, b1).value, BlockToDocuments(codec, b2).value;
      BlocksToDocumentsEvicting(codec, [b1, b2]) == Success(MergeEvicting(r1, r2))
  {
    var r1 := BlockToDocuments(codec, b1).value;
    assert [b1, b2][1..] == [b2] && [b2][1..] == [];
    EvictingFromEmpty(r1);
    assert MergeBlocksEvicting(EmptyResponse, codec, [b1, b2]) == MergeBlocksEvicting(r1, codec, [b2]);
  }

  /**
   * A key removed by one block and added by a later one (or added, then
   * removed) is in both maps of the batch.
   */
  lemma StaleDispositionKept(codec: JsonCodec, b1: Block, b2: Block, k: string)
    requires BlockToDocuments(codec, b1).Success? && BlockToDocuments(codec, b2).Success?
    requires var r1, r2 := BlockToDocuments(codec, b1).value, BlockToDocuments(codec, b2).value;
      (k in r1.toRemove && k in r2.toAdd) || (k in r1.toAdd && k in r2.toRemove)
    ensures BlocksToDocuments(codec, [b1, b2]).Success?
    ensures k in BlocksToDocuments(codec, [b1, b2]).value.toAdd && k in BlocksToDocuments(codec, [b1, b2]).value.toRemove
  {
    TwoBlocksMerge(codec, b1, b2);
  }

  // ---------------------------------------------------------------------
  // The evicting merge
  // ---------------------------------------------------------------------

  /**
   * A later response's dispositions win: each key it adds leaves the
   * accumulated remove map and each key it removes leaves the add map.
   */
  function MergeEvicting(acc: Response, r: Response): (m: Response)
  {
    Response((acc.toAdd - r.toRemove.Keys) + r.toAdd, (acc.toRemove - r.toAdd.Keys) + r.toRemove)
  }

  lemma KeyedEvicting(a: map<string, Document>, gone: set<string>, b: map<string, Document>)
    requires KeyedByPrimaryKey(a) && KeyedByPrimaryKey(b)
    ensures KeyedByPrimaryKey((a - gone) + b)
  {
    var m := (a - gone) + b;
    forall k | k in m
      ensures m[k].primaryKey == k && DocWellFormed(m[k])
    {
      if k in b {
        assert m[k] == b[k];
      } else {
        assert m[k] == a[k];
      }
    }
  }

  /** The evicting merge of two well-formed responses is well formed. */
  lemma MergeEvictingWellFormed(acc: Response, r: Response)
    ensures WellFormed(acc) && WellFormed(r) ==> WellFormed(MergeEvicting(acc, r))
  {
    if WellFormed(acc) && WellFormed(r) {
      KeyedEvicting(acc.toAdd, r.toRemove.Keys, r.toAdd);
      KeyedEvicting(acc.toRemove, r.toAdd.Keys, r.toRemove);
    }
  }

  /**
   * Per key, the later response decides: a key it adds or removes takes
   * that disposition and value, and any other key keeps the accumulated one.
   */
  lemma MergeEvictingSpec(acc: Response, r: Response, k: string)
    requires r.toAdd.Keys !! r.toRemove.Keys
    ensures var m := MergeEvicting(acc, r);
      && (k in r.toAdd ==> k in m.toAdd && m.toAdd[k] == r.toAdd[k] && k !in m.toRemove)
      && (k in r.toRemove ==> k in m.toRemove && m.toRemove[k] == r.toRemove[k] && k !in m.toAdd)
      && (k !in r.toAdd && k !in r.toRemove ==>
        && (k in m.toAdd <==> k in acc.toAdd) && (k in m.toRemove <==> k in acc.toRemove)
        && (k in m.toAdd ==> m.toAdd[k] == acc.toAdd[k])
        && (k in m.toRemove ==> m.toRemove[k] == acc.toRemove[k]))
  {
  }

  function MergeBlocksEvicting(acc: Response, codec: JsonCodec, bs: seq<Block>): (res: Result<Response, BlockError>)
    ensures res.Failure? <==> exists i :: 0 <= i < |bs| && BlockToDocuments(codec, bs[i]).Failure?
    decreases |bs|
  {
    if bs == [] then Success(acc)
    else
      match BlockToDocuments(codec, bs[0])
      case Failure(e) => Failure(e)
      case Success(r) =>
        assert forall i :: 0 < i < |bs| ==> bs[i] == bs[1..][i - 1];
        MergeBlocksEvicting(MergeEvicting(acc, r), codec, bs[1..])
  }

  /** The evicting fold keeps a well-formed accumulator well formed. */
  lemma {:induction false} MergeBlocksEvictingWellFormed(acc: Response, codec: JsonCodec, bs: seq<Block>)
    ensures WellFormed(acc) && MergeBlocksEvicting(acc, codec, bs).Success? ==>
      WellFormed(MergeBlocksEvicting(acc, codec, bs).value)
    decreases |bs|
  {
    if bs != [] {
      var first := BlockToDocuments(codec, bs[0]);
      if first.Success? {
        MergeEvictingWellFormed(acc, first.value);
        MergeBlocksEvictingWellFormed(MergeEvicting(acc, first.value), codec, bs[1..]);
      }
    }
  }

  /** `BlocksToDocuments` with the evicting merge: no key is ever in both maps. */
  function BlocksToDocumentsEvicting(codec: JsonCodec, bs: seq<Block>): (res: Result<Response, BlockError>)
    ensures bs == [] ==> res == Success(EmptyResponse)
    ensures res.Failure? <==> exists i :: 0 <= i < |bs| && BlockToDocuments(codec, bs[i]).Failure?
    ensures res.Success? ==> WellFormed(res.value)
  {
    EmptyWellFormed();
    MergeBlocksEvictingWellFormed(EmptyResponse, codec, bs);
    MergeBlocksEvicting(EmptyResponse, codec, bs)
  }

  /** The documents of all blocks, block after block, in write order. */
  function BatchDocs(codec: JsonCodec, bs: seq<Block>): Result<seq<Placement>, BlockError>
    decreases |bs|
  {
    if bs == [] then Success([])
    else
      var first :- BlockDocs(codec, bs[0].number, bs[0].entries);
      var rest :- BatchDocs(codec, bs[1..]);
      Success(first + rest)
  }

  /** Placing a block's documents on top of earlier ones is the evicting merge of its response. */
  lemma PlaceAllIsEvictingMerge(acc: Response, ps: seq<Placement>)
    ensures PlaceAll(acc, ps) == MergeEvicting(acc, PlaceAll(EmptyResponse, ps))
  {
    var left, right := PlaceAll(acc, ps), MergeEvicting(acc, PlaceAll(EmptyResponse, ps));
    forall k
      ensures (k in left.toAdd <==> k in right.toAdd) && (k in left.toRemove <==> k in right.toRemove)
      ensures k in left.toAdd ==> left.toAdd[k] == right.toAdd[k]
      ensures k in left.toRemove ==> left.toRemove[k] == right.toRemove[k]
    {
      LastWriteWins(acc, ps, k);
      LastWriteWins(EmptyResponse, ps, k);
    }
    assert left.toAdd == right.toAdd;
    assert left.toRemove == right.toRemove;
  }

  lemma {:induction false} MergeBlocksEvictingIsFold(acc: Response, codec: JsonCodec, bs: seq<Block>)
    ensures MergeBlocksEvicting(acc, codec, bs) == Placed(acc, BatchDocs(codec, bs))
    decreases |bs|
  {
    if bs != [] {
      BlockToDocumentsIsFold(codec, bs[0]);
      var first := BlockDocs(codec, bs[0].number, bs[0].entries);
      if first.Success? {
        var r := PlaceAll(EmptyResponse, first.value);
        PlaceAllIsEvictingMerge(acc, first.value);
        MergeBlocksEvictingIsFold(MergeEvicting(acc, r), codec, bs[1..]);
        var rest := BatchDocs(codec, bs[1..]);
        if rest.Success? {
          PlaceAllAppend(acc, first.value, rest.value);
        }
      }
    }
  }

  /**
   * With the evicting merge, a batch is its blocks' writes placed in block,
   * transaction, namespace and write order: for each key the last write
   * across the whole batch decides the one map that holds it.
   */
  lemma BatchLastWriteWins(codec: JsonCodec, bs: seq<Block>, k: string)
    requires BlocksToDocumentsEvicting(codec, bs).Success?
    ensures BatchDocs(codec, bs).Success?
    ensures var out := BlocksToDocumentsEvicting(codec, bs).value;
      var ps := BatchDocs(codec, bs).value;
      var i := LastIndex(ps, k);
      && (i < 0 ==> k !in out.toAdd && k !in out.toRemove)
      && (i >= 0 && ps[i].isDelete ==> k in out.toRemove && out.toRemove[k] == ps[i].doc && k !in out.toAdd)
      && (i >= 0 && !ps[i].isDelete ==> k in out.toAdd && out.toAdd[k] == ps[i].doc && k !in out.toRemove)
  {
    MergeBlocksEvictingIsFold(EmptyResponse, codec, bs);
    LastWriteWins(EmptyResponse, BatchDocs(codec, bs).value, k);
  }
  // ---------------------------------------------------------------------
  // One block, and a batch where the two merges differ
  // ---------------------------------------------------------------------

  /** A batch of one block is that block's response, so `Store` and `StoreBulk` agree on it. */
  lemma SingleBlockBatch(codec: JsonCodec, b: Block)
    ensures BlocksToDocuments(codec, [b]) == BlockToDocuments(codec, b)
    ensures BlocksToDocumentsEvicting(codec, [b]) == BlockToDocuments(codec, b)
  {
    SingleBlockMerge(codec, b);
    SingleBlockEvicting(codec, b);
  }

  lemma SingleBlockMerge(codec: JsonCodec, b: Block)
    ensures BlocksToDocuments(codec, [b]) == BlockToDocuments(codec, b)
  {
    var r := BlockToDocuments(codec, b);
    assert [b][1..] == [];
    if r.Success? {
      var v := r.value;
      MergeTwo(map[], v.toAdd);
      MergeTwo(map[], v.toRemove);
      EmptyUnion(v.toAdd);
      EmptyUnion(v.toRemove);
      assert MergeBlocks(EmptyResponse, codec, [b]) == MergeBlocks(Response(v.toAdd, v.toRemove), codec, []);
    }
  }

  /** Merging into nothing gives the response itself. */
  lemma EvictingFromEmpty(v: Response)
    ensures MergeEvicting(EmptyResponse, v) == v
  {
    EmptyUnion(v.toAdd);
    EmptyUnion(v.toRemove);
    assert (map[] - v.toRemove.Keys) + v.toAdd == v.toAdd;
    assert (map[] - v.toAdd.Keys) + v.toRemove == v.toRemove;
  }

  lemma SingleBlockEvicting(codec: JsonCodec, b: Block)
    ensures BlocksToDocumentsEvicting(codec, [b]) == BlockToDocuments(codec, b)
  {
    var r := BlockToDocuments(codec, b);
    assert [b][1..] == [];
    if r.Success? {
      EvictingFromEmpty(r.value);
      assert MergeBlocksEvicting(EmptyResponse, codec, [b]) == MergeBlocksEvicting(r.value, codec, []);
    }
  }

  /** A block holding one endorser transaction with a single write. */
  function OneWriteBlock(number: nat, w: KvWrite): Block {
    Block(number, [Tx(ChannelHeader(EndorserTransaction, "mychannel", "tx" , 0), RwSet([NsRwSet("cc", [w])]))])
  }

  lemma OneWrite(codec: JsonCodec, number: nat, w: KvWrite)
    requires !codec.parse(w.value).ParsedNull? && Nul !in w.key
    ensures BlockToDocuments(codec, OneWriteBlock(number, w)).Success?
    ensures var r := BlockToDocuments(codec, OneWriteBlock(number, w)).value;
      && (w.isDelete ==> w.key in r.toRemove && r.toAdd == map[])
      && (!w.isDelete ==> w.key in r.toAdd && r.toRemove == map[])
      && (forall k :: k in r.toAdd ==> k == w.key && r.toAdd[k].primaryKey == w.key && r.toAdd[k].chaincodeId == "cc")
      && (forall k :: k in r.toRemove ==> k == w.key && r.toRemove[k].primaryKey == w.key && r.toRemove[k].chaincodeId == "cc")
  {
    var b := OneWriteBlock(number, w);
    SingleWriteSetBlock(codec, b);
    var meta := Meta(b.entries[0].header, number);
    SingleWrite(codec, meta, "cc", w);
  }

  /** The loop over a single write places that write's document in an empty response. */
  lemma SingleWrite(codec: JsonCodec, meta: TxMeta, ns: string, w: KvWrite)
    requires !codec.parse(w.value).ParsedNull?
    ensures BuildDocument(codec, meta, ns, w).Some?
    ensures var d := BuildDocument(codec, meta, ns, w).value;
      PlaceWrites(EmptyResponse, codec, meta, ns, [w]) == Success(
        if w.isDelete then Response(map[], map[d.primaryKey := d]) else Response(map[d.primaryKey := d], map[]))
  {
    var d := BuildDocument(codec, meta, ns, w).value;
    assert [w][1..] == [];
    assert PlaceWrites(EmptyResponse, codec, meta, ns, [w]) == PlaceWrites(Place(EmptyResponse, Placement(d, w.isDelete)), codec, meta, ns, []);
    PlaceInEmpty(Placement(d, w.isDelete));
  }

  /** Placing one document in an empty response. */
  lemma PlaceInEmpty(p: Placement)
    ensures Place(EmptyResponse, p) ==
      if p.isDelete then Response(map[], map[p.doc.primaryKey := p.doc]) else Response(map[p.doc.primaryKey := p.doc], map[])
  {
    var none: map<string, Document> := map[];
    assert none - {p.doc.primaryKey} == none;
  }

  /** The batch of `DeleteThenReAdd`: key K deleted in block 1 and written again in block 2. */
  function ReAddBatch(): seq<Block> {
    [OneWriteBlock(1, KvWrite("K", true, "")), OneWriteBlock(2, KvWrite("K", false, "v"))]
  }

  /**
   * As written, the batch lists K both to add and to remove, each time
   * with a document of chaincode `cc` whose primary key is K.
   */
  lemma DeleteThenReAdd(codec: JsonCodec)
    requires !codec.parse("").ParsedNull? && !codec.parse("v").ParsedNull?
    ensures var out := BlocksToDocuments(codec, ReAddBatch());
      && out.Success? && "K" in out.value.toAdd && "K" in out.value.toRemove
      && out.value.toAdd["K"].primaryKey == "K" && out.value.toAdd["K"].chaincodeId == "cc"
      && out.value.toRemove["K"].primaryKey == "K" && out.value.toRemove["K"].chaincodeId == "cc"
  {
    var bs := ReAddBatch();
    OneWrite(codec, 1, KvWrite("K", true, ""));
    OneWrite(codec, 2, KvWrite("K", false, "v"));
    TwoBlocksMerge(codec, bs[0], bs[1]);
    var r1, r2 := BlockToDocuments(codec, bs[0]).value, BlockToDocuments(codec, bs[1]).value;
    assert (r1.toAdd + r2.toAdd)["K"] == r2.toAdd["K"];
    assert (r1.toRemove + r2.toRemove)["K"] == r1.toRemove["K"];
  }

  /** With the evicting merge, the later write wins and K is only added. */
  lemma DeleteThenReAddEvicting(codec: JsonCodec)
    requires !codec.parse("").ParsedNull? && !codec.parse("v").ParsedNull?
    ensures var out := BlocksToDocumentsEvicting(codec, ReAddBatch());
      && out.Success? && "K" in out.value.toAdd && "K" !in out.value.toRemove
      && out.value.toRemove == map[] && out.value.toAdd["K"].chaincodeId == "cc"
  {
    var bs := ReAddBatch();
    OneWrite(codec, 1, KvWrite("K", true, ""));
    OneWrite(codec, 2, KvWrite("K", false, "v"));
    TwoBlocksEvicting(codec, bs[0], bs[1]);
    ReAddEvicts(BlockToDocuments(codec, bs[0]).value, BlockToDocuments(codec, bs[1]).value, "K");
  }

  /** A removal of only `k` followed by an addition of `k`: the merge only adds. */
  lemma ReAddEvicts(r1: Response, r2: Response, k: string)
    requires r1.toAdd == map[] && (forall k' :: k' in r1.toRemove ==> k' == k)
    requires r2.toRemove == map[] && k in r2.toAdd
    ensures MergeEvicting(r1, r2) == Response(r2.toAdd, map[])
  {
    assert r1.toRemove - r2.toAdd.Keys == map[];
  }
}

=== FILE: blocks.dfy ===
/**
 * `BlockToDocuments` (pkg/transformation/transformation.go): a decoded block
 * becomes an extraction response, two maps from primary key to document.
 *
 * Protobuf decoding is not modelled: a block arrives already decoded into
 * entries, each either a decode failure at one of the points where the
 * source returns an error, or a transaction with its channel header and
 * body. The body of an endorser transaction is a failed action extraction,
 * a failed read/write-set decoding or the decoded namespace write sets.
 */
module Blocks {
  import opened Wrappers
  import opened Json
  import opened Documents

  /** The header types the source's switch names, and every other value. */
  datatype HeaderType =
    | Message
    | Config
    | ConfigUpdate
    | EndorserTransaction
    | OrdererTransaction
    | DeliverSeekInfo
    | ChaincodePackage
    | Unlisted(code: int)

  /** The decoding steps that abort the whole block when they fail. */
  datatype DecodeStage = EnvelopeStage | PayloadStage | ChannelHeaderStage | TimestampStage

  datatype NsRwSet = NsRwSet(namespace: string, writes: seq<KvWrite>)

  datatype TxBody =
    | ActionError               // the action could not be extracted from the envelope
    | RwSetError                // the action's results are not a read/write set
    | RwSet(nsRwSets: seq<NsRwSet>)

  /** `unixNanos` is the header timestamp as `time.Time.UnixNano()`. */
  datatype ChannelHeader = ChannelHeader(headerType: HeaderType, channelId: string, txId: string, unixNanos: int)

  datatype Entry = Undecodable(stage: DecodeStage) | Tx(header: ChannelHeader, body: TxBody)

  datatype Block = Block(number: nat, entries: seq<Entry>)

  /**
   * Why a block yields no response. `NilDataPanic` is not an error value in
   * the source but a runtime panic: a write whose value is the JSON literal
   * `null` leaves a nil map that the injection of the reserved fields writes to.
   */
  datatype BlockError = DecodeError(stage: DecodeStage) | RwSetDecodeError | NilDataPanic

  /** `DocumentExtractionResponse`. */
  datatype Response = Response(toAdd: map<string, Document>, toRemove: map<string, Document>)

  const EmptyResponse: Response := Response(map[], map[])

  /** Each map is keyed by its documents' primary keys, and every document is well formed. */
  ghost predicate KeyedByPrimaryKey(m: map<string, Document>) {
    forall k :: k in m ==> m[k].primaryKey == k && DocWellFormed(m[k])
  }

  /** The invariant of a block's response: no key is both added and removed. */
  ghost predicate WellFormed(r: Response) {
    && r.toAdd.Keys !! r.toRemove.Keys
    && KeyedByPrimaryKey(r.toAdd)
    && KeyedByPrimaryKey(r.toRemove)
  }

  lemma EmptyWellFormed()
    ensures WellFormed(EmptyResponse)
  {
  }

  // ---------------------------------------------------------------------
  // Transaction metadata
  // ---------------------------------------------------------------------

  const NanosPerMilli: int := 1_000_000

  /** Go's integer division, which truncates toward zero. */
  function TruncDiv(n: int, d: int): (q: int)
    requires d > 0
    ensures n >= 0 ==> q >= 0 && 0 <= n - q * d < d
    ensures n < 0 ==> q <= 0 && -d < n - q * d <= 0
  {
    var m := if n >= 0 then n else -n;
    DivBounds(m, d);
    if n >= 0 then m / d else -(m / d)
  }

  /** Euclidean division of a natural number, with the product of the negated quotient spelled out. */
  lemma DivBounds(m: int, d: int)
    requires m >= 0 && d > 0
    ensures m / d >= 0 && 0 <= m - (m / d) * d < d
    ensures (-(m / d)) * d == -((m / d) * d)
  {
  }

  /** `UnixNano() / int64(time.Millisecond)`. */
  function MillisOf(unixNanos: int): int {
    TruncDiv(unixNanos, NanosPerMilli)
  }

  function Meta(h: ChannelHeader, number: nat): TxMeta {
    TxMeta(h.channelId, h.txId, MillisOf(h.unixNanos), number)
  }

  // ---------------------------------------------------------------------
  // Placing one document
  // ---------------------------------------------------------------------

  /** A built document and the map its write sends it to. */
  datatype Placement = Placement(doc: Document, isDelete: bool)

  function KeyOf(p: Placement): string {
    p.doc.primaryKey
  }

  /**
   * A delete goes into `toRemove` and evicts the key from `toAdd`; any other
   * write goes into `toAdd` and evicts the key from `toRemove`.
   */
  function Place(r: Response, p: Placement): (r': Response)
    ensures p.isDelete ==> KeyOf(p) in r'.toRemove && r'.toRemove[KeyOf(p)] == p.doc && KeyOf(p) !in r'.toAdd
    ensures !p.isDelete ==> KeyOf(p) in r'.toAdd && r'.toAdd[KeyOf(p)] == p.doc && KeyOf(p) !in r'.toRemove
    ensures forall k :: k != KeyOf(p) ==> (k in r'.toAdd <==> k in r.toAdd) && (k in r'.toRemove <==> k in r.toRemove)
    ensures forall k :: k != KeyOf(p) && k in r'.toAdd ==> r'.toAdd[k] == r.toAdd[k]
    ensures forall k :: k != KeyOf(p) && k in r'.toRemove ==> r'.toRemove[k] == r.toRemove[k]
    ensures WellFormed(r) && DocWellFormed(p.doc) ==> WellFormed(r')
  {
    var k := KeyOf(p);
    if p.isDelete then Response(r.toAdd - {k}, r.toRemove[k := p.doc])
    else Response(r.toAdd[k := p.doc], r.toRemove - {k})
  }

  // ---------------------------------------------------------------------
  // The transformation, shaped like the source's nested loops
  // ---------------------------------------------------------------------

  /** The loop over one namespace's writes. */
  function PlaceWrites(r: Response, codec: JsonCodec, meta: TxMeta, ns: string, ws: seq<KvWrite>)
    : (res: Result<Response, BlockError>)
    ensures res.Failure? <==> exists i :: 0 <= i < |ws| && codec.parse(ws[i].value).ParsedNull?
    ensures res.Failure? ==> res.error == NilDataPanic
    ensures WellFormed(r) && res.Success? ==> WellFormed(res.value)
    decreases |ws|
  {
    if ws == [] then Success(r)
    else
      match BuildDocument(codec, meta, ns, ws[0])
      case None => Failure(NilDataPanic)
      case Some(d) =>
        var res := PlaceWrites(Place(r, Placement(d, ws[0].isDelete)), codec, meta, ns, ws[1..]);
        assert forall i :: 0 < i < |ws| ==> ws[i] == ws[1..][i - 1];
        res
  }

  /** One turn of the loop over a namespace's writes: the first write's document is placed. */
  lemma PlaceWritesStep(r: Response, codec: JsonCodec, meta: TxMeta, ns: string, ws: seq<KvWrite>, d: Document)
    requires ws != [] && BuildDocument(codec, meta, ns, ws[0]) == Some(d)
    ensures PlaceWrites(r, codec, meta, ns, ws) == PlaceWrites(Place(r, Placement(d, ws[0].isDelete)), codec, meta, ns, ws[1..])
  {
  }

  /** The loop over a transaction's namespace read/write sets. */
  function PlaceNamespaces(r: Response, codec: JsonCodec, meta: TxMeta, sets: seq<NsRwSet>)
    : (res: Result<Response, BlockError>)
    ensures res.Failure? ==> res.error == NilDataPanic
    ensures WellFormed(r) && res.Success? ==> WellFormed(res.value)
    decreases |sets|
  {
    if sets == [] then Success(r)
    else
      var r1 :- PlaceWrites(r, codec, meta, sets[0].namespace, sets[0].writes);
      PlaceNamespaces(r1, codec, meta, sets[1..])
  }

  /** One entry of the block: the header-type switch and its error handling. */
  function PlaceEntry(r: Response, codec: JsonCodec, number: nat, e: Entry): (res: Result<Response, BlockError>)
    ensures e.Undecodable? ==> res == Failure(DecodeError(e.stage))
    ensures e.Tx? && e.header.headerType != EndorserTransaction ==> res == Success(r)
    ensures e.Tx? && e.header.headerType == EndorserTransaction && e.body.ActionError? ==> res == Success(r)
    ensures e.Tx? && e.header.headerType == EndorserTransaction && e.body.RwSetError? ==> res == Failure(RwSetDecodeError)
    ensures WellFormed(r) && res.Success? ==> WellFormed(res.value)
  {
    match e
    case Undecodable(stage) => Failure(DecodeError(stage))
    case Tx(h, body) =>
      if h.headerType != EndorserTransaction then Success(r)
      else
        match body
        case ActionError => Success(r)
        case RwSetError => Failure(RwSetDecodeError)
        case RwSet(sets) => PlaceNamespaces(r, codec, Meta(h, number), sets)
  }

  /** The loop over the block's entries; the first failure aborts the block. */
  function PlaceEntries(r: Response, codec: JsonCodec, number: nat, es: seq<Entry>)
    : (res: Result<Response, BlockError>)
    ensures WellFormed(r) && res.Success? ==> WellFormed(res.value)
    decreases |es|
  {
    if es == [] then Success(r)
    else
      var r1 :- PlaceEntry(r, codec, number, es[0]);
      PlaceEntries(r1, codec, number, es[1..])
  }

  /** `BlockToDocuments`. */
  function BlockToDocuments(codec: JsonCodec, b: Block): (res: Result<Response, BlockError>)
    ensures b.entries == [] ==> res == Success(EmptyResponse)
    ensures res.Success? ==> WellFormed(res.value)
  {
    PlaceEntries(EmptyResponse, codec, b.number, b.entries)
  }
}

=== FILE: decimal.dfy ===
/**
 * Go's `strconv.Itoa` and `strconv.Atoi`, the text codec of the sync
 * checkpoint: the cursor is saved as `Itoa(cursor)` and read back with `Atoi`.
 */
module Decimal {
  import opened Wrappers

  const MinInt64: int := -0x8000_0000_0000_0000
  const MaxInt64: int := 0x7fff_ffff_ffff_ffff

  predicate IsDigit(c: char) { '0' <= c <= '9' }

  predicate AllDigits(s: string) { forall i :: 0 <= i < |s| ==> IsDigit(s[i]) }

  function DigitChar(d: nat): (c: char)
    requires d < 10
    ensures IsDigit(c) && c as int - '0' as int == d
  {
    ('0' as int + d) as char
  }

  function DigitValue(c: char): (d: nat)
    requires IsDigit(c)
    ensures d < 10 && DigitChar(d) == c
  {
    c as int - '0' as int
  }

  /** The value of a string of decimal digits, most significant first. */
  function DigitsValue(s: string): nat
    requires AllDigits(s)
  {
    if |s| == 0 then 0 else DigitsValue(s[..|s| - 1]) * 10 + DigitValue(s[|s| - 1])
  }

  /** Decimal digits of a natural number, without leading zeros. */
  function NatToDecimal(n: nat): (s: string)
    ensures |s| > 0 && AllDigits(s)
    ensures s[0] == '0' ==> n == 0 && s == "0"
    decreases n
  {
    if n < 10 then [DigitChar(n)] else NatToDecimal(n / 10) + [DigitChar(n % 10)]
  }

  /** `strconv.Itoa`: a minus sign for negative numbers, then the digits. */
  function Itoa(n: int): (s: string)
    ensures |s| > 0
    ensures n < 0 <==> s[0] == '-'
    ensures AllDigits(if n < 0 then s[1..] else s)
  {
    if n < 0 then "-" + NatToDecimal(-n) else NatToDecimal(n)
  }

  /** The text after an optional leading `+` or `-`. */
  function Unsigned(s: string): (u: string)
    ensures |u| == |s| || (|u| == |s| - 1 && u == s[1..] && (s[0] == '-' || s[0] == '+'))
  {
    if |s| > 0 && (s[0] == '-' || s[0] == '+') then s[1..] else s
  }

  /** The sign a signed decimal text carries: only a leading `-` makes it negative. */
  predicate IsNegative(s: string) { |s| > 0 && s[0] == '-' }

  /**
   * `strconv.Atoi`: an optional `+` or `-` followed by at least one decimal
   * digit, whose value fits a 64-bit int; anything else is an error.
   */
  function Atoi(s: string): (r: Option<int>)
    ensures r.Some? ==> MinInt64 <= r.value <= MaxInt64
    ensures r.Some? ==> |Unsigned(s)| > 0 && AllDigits(Unsigned(s))
    ensures r.Some? && r.value < 0 ==> IsNegative(s)
  {
    if |s| == 0 then None
    else
      var body := Unsigned(s);
      if |body| == 0 || !AllDigits(body) then None
      else
        var v: int := if IsNegative(s) then -(DigitsValue(body) as int) else DigitsValue(body);
        if MinInt64 <= v <= MaxInt64 then Some(v) else None
  }

  /**
   * What `Atoi` accepts, exactly: a sign, then a non-empty digit run whose
   * value fits the range on that side of zero; and the value it reads.
   */
  lemma AtoiAccepts(s: string)
    ensures Atoi(s).Some? <==>
      && |Unsigned(s)| > 0 && AllDigits(Unsigned(s))
      && DigitsValue(Unsigned(s)) <= (if IsNegative(s) then -MinInt64 else MaxInt64)
    ensures Atoi(s).Some? ==>
      Atoi(s).value == if IsNegative(s) then -(DigitsValue(Unsigned(s)) as int) else DigitsValue(Unsigned(s))
  {
  }

  /** A leading `+` is accepted and leading zeros are read as such. */
  lemma AtoiExamples()
    ensures Atoi("+7") == Some(7)
    ensures Atoi("-007") == Some(-7)
    ensures Atoi("-") == None && Atoi("") == None
  {
    assert Unsigned("+7") == "7";
    assert DigitsValue("7") == 7;
    assert Unsigned("-007") == "007";
    assert "007"[..2] == "00" && "00"[..1] == "0" && "0"[..0] == "";
  }

  lemma {:induction false} DigitsOfNat(n: nat)
    ensures DigitsValue(NatToDecimal(n)) == n
    decreases n
  {
    if n >= 10 {
      var prefix := NatToDecimal(n / 10);
      var s := prefix + [DigitChar(n % 10)];
      assert s[..|s| - 1] == prefix;
      DigitsOfNat(n / 10);
    }
  }

  /** Reading back what was written gives the same number. */
  lemma AtoiItoa(n: int)
    requires MinInt64 <= n <= MaxInt64
    ensures Atoi(Itoa(n)) == Some(n)
  {
    var s := Itoa(n);
    if n < 0 {
      var digits := NatToDecimal(-n);
      assert s == "-" + digits && s[0] == '-' && Unsigned(s) == digits;
      DigitsOfNat(-n);
      assert DigitsValue(digits) == -n;
    } else {
      DigitsOfNat(n);
      assert s[0] != '-' && s[0] != '+';
    }
  }

  /** Text that is not a signed decimal number is rejected. */
  lemma AtoiRejectsNonNumeric(s: string, i: nat)
    requires 0 < i < |s| && !IsDigit(s[i])
    ensures Atoi(s) == None
  {
  }
}

=== FILE: documents.dfy ===
/**
 * One ledger write turned into one storage document: the reserved field
 * names, the composite-key normalisation and the building of `Data`
 * (pkg/transformation/transformation.go).
 */
module Documents {
  import opened Wrappers
  import opened Json

  /** Names of the fields injected into every document's data. */
  const PrimaryKeyField: string := "_fabric_id"
  const DateField: string := "_fabric_date"
  const TxIdField: string := "_fabric_txid"
  /** Field that wraps a value which is not a JSON object. */
  const ValueField: string := "value"

  /** The composite-key separator and what an interior one becomes. */
  const Nul: char := '\0'
  const NulReplacement: string := "__"

  predicate IsReserved(f: string) {
    f == PrimaryKeyField || f == DateField || f == TxIdField
  }

  /** A write of a namespace's read/write set, as decoded from the block. */
  datatype KvWrite = KvWrite(key: string, isDelete: bool, value: string)

  /** Transaction data every document of the transaction carries. */
  datatype TxMeta = TxMeta(channelId: string, txId: string, txDateMs: int, blockNumber: int)

  datatype Document = Document(
    txDate: int,
    txId: string,
    blockNumber: int,
    channelId: string,
    data: Object,
    chaincodeId: string,
    primaryKey: string)

  /** The data of a document repeats its key, transaction id and date. */
  ghost predicate DocWellFormed(d: Document) {
    && PrimaryKeyField in d.data && d.data[PrimaryKeyField] == JString(d.primaryKey)
    && TxIdField in d.data && d.data[TxIdField] == JString(d.txId)
    && DateField in d.data && d.data[DateField] == JNumber(d.txDate)
  }

  // ---------------------------------------------------------------------
  // Key normalisation
  // ---------------------------------------------------------------------

  function Nuls(n: nat): (r: string)
    ensures |r| == n && forall i :: 0 <= i < n ==> r[i] == Nul
  {
    seq(n, _ => Nul)
  }

  /** Drops every leading separator. */
  function TrimLeadingNul(s: string): (r: string)
    ensures |r| <= |s| && s == Nuls(|s| - |r|) + r
    ensures r == [] || r[0] != Nul
  {
    if |s| > 0 && s[0] == Nul then
      var r := TrimLeadingNul(s[1..]);
      assert s == [Nul] + s[1..];
      assert Nuls(|s| - |r|) == [Nul] + Nuls(|s| - 1 - |r|);
      r
    else
      assert Nuls(0) == [];
      s
  }

  /** Drops every trailing separator. */
  function TrimTrailingNul(s: string): (r: string)
    ensures |r| <= |s| && s == r + Nuls(|s| - |r|)
    ensures r == [] || r[|r| - 1] != Nul
  {
    if |s| > 0 && s[|s| - 1] == Nul then
      var r := TrimTrailingNul(s[..|s| - 1]);
      assert s == s[..|s| - 1] + [Nul];
      assert Nuls(|s| - |r|) == Nuls(|s| - 1 - |r|) + [Nul];
      r
    else
      assert Nuls(0) == [];
      s
  }

  /**
   * `strings.Trim(key, "\u0000")`: the key with all its leading and trailing
   * separators removed, and no separator at either end of what is left.
   */
  function TrimNul(s: string): (r: string)
    ensures exists a: nat, b: nat :: s == Nuls(a) + r + Nuls(b)
    ensures r == [] || (r[0] != Nul && r[|r| - 1] != Nul)
    ensures Nul !in s ==> r == s
  {
    var l := TrimLeadingNul(s);
    var r := TrimTrailingNul(l);
    assert s == Nuls(|s| - |l|) + r + Nuls(|l| - |r|);
    r
  }

  /** `strings.Replace(s, "\u0000", "__", -1)`. */
  function ReplaceNul(s: string): (r: string)
    ensures Nul !in r
    ensures Nul !in s ==> r == s
  {
    if s == [] then []
    else
      var rest := ReplaceNul(s[1..]);
      if s[0] == Nul then NulReplacement + rest
      else
        assert s == [s[0]] + s[1..];
        [s[0]] + rest
  }

  /** The primary key derived from a raw (possibly composite) ledger key. */
  function NormalizeKey(key: string): (k: string)
    ensures Nul !in k
    ensures Nul !in key ==> k == key
  {
    ReplaceNul(TrimNul(key))
  }

  lemma {:induction false} ReplaceNulAppend(a: string, b: string)
    ensures ReplaceNul(a + b) == ReplaceNul(a) + ReplaceNul(b)
    decreases |a|
  {
    if a == [] {
      assert a + b == b;
    } else {
      assert (a + b)[1..] == a[1..] + b;
      ReplaceNulAppend(a[1..], b);
    }
  }

  /** Normalising a primary key changes nothing. */
  lemma NormalizeKeyIdempotent(key: string)
    ensures NormalizeKey(NormalizeKey(key)) == NormalizeKey(key)
  {
  }

  /** Components joined by a separator. */
  function Join(parts: seq<string>, sep: string): string
    requires |parts| > 0
  {
    if |parts| == 1 then parts[0] else parts[0] + sep + Join(parts[1..], sep)
  }

  /** A join starts with its first component. */
  lemma JoinFirst(parts: seq<string>, sep: string)
    requires |parts| > 0
    ensures parts[0] <= Join(parts, sep)
  {
  }

  /** A join ends with its last component. */
  lemma {:induction false} JoinLast(parts: seq<string>, sep: string)
    requires |parts| > 0
    ensures var j := Join(parts, sep); var last := parts[|parts| - 1];
      |last| <= |j| && j[|j| - |last|..] == last
    decreases |parts|
  {
    if |parts| > 1 {
      JoinLast(parts[1..], sep);
      var rest := Join(parts[1..], sep);
      var j := Join(parts, sep);
      assert j == (parts[0] + sep) + rest;
      assert j[|j| - |rest|..] == rest;
    }
  }

  lemma {:induction false} ReplaceNulJoin(parts: seq<string>)
    requires |parts| > 0
    requires forall i :: 0 <= i < |parts| ==> Nul !in parts[i]
    ensures ReplaceNul(Join(parts, [Nul])) == Join(parts, NulReplacement)
    decreases |parts|
  {
    if |parts| > 1 {
      var rest := Join(parts[1..], [Nul]);
      ReplaceNulAppend(parts[0] + [Nul], rest);
      ReplaceNulAppend(parts[0], [Nul]);
      assert ReplaceNul([Nul]) == NulReplacement;
      ReplaceNulJoin(parts[1..]);
    }
  }

  lemma {:induction false} TrimLeadingNuls(a: nat, x: string)
    requires x == [] || x[0] != Nul
    ensures TrimLeadingNul(Nuls(a) + x) == x
    decreases a
  {
    if a == 0 {
      assert Nuls(a) + x == x;
    } else {
      assert (Nuls(a) + x)[1..] == Nuls(a - 1) + x;
      TrimLeadingNuls(a - 1, x);
    }
  }

  lemma {:induction false} TrimTrailingNuls(x: string, b: nat)
    requires x == [] || x[|x| - 1] != Nul
    ensures TrimTrailingNul(x + Nuls(b)) == x
    decreases b
  {
    if b == 0 {
      assert x + Nuls(b) == x;
    } else {
      var s := x + Nuls(b);
      assert s[..|s| - 1] == x + Nuls(b - 1);
      TrimTrailingNuls(x, b - 1);
    }
  }

  /** Trimming recovers the middle of any NUL-wrapped key whose middle has no NUL at its ends. */
  lemma TrimNulUnique(a: nat, m: string, b: nat)
    requires m == [] || (m[0] != Nul && m[|m| - 1] != Nul)
    ensures TrimNul(Nuls(a) + m + Nuls(b)) == m
  {
    if m == [] {
      assert Nuls(a) + m + Nuls(b) == Nuls(a + b);
      assert Nuls(a + b) == Nuls(a + b) + [];
      TrimLeadingNuls(a + b, []);
      TrimTrailingNuls([], 0);
    } else {
      assert Nuls(a) + m + Nuls(b) == Nuls(a) + (m + Nuls(b));
      TrimLeadingNuls(a, m + Nuls(b));
      TrimTrailingNuls(m, b);
    }
  }

  /**
   * A composite key (its components separated by NUL and wrapped in any
   * number of NULs, none of them containing NUL, the first and last not
   * empty) becomes its components joined by `__`.
   */
  lemma NormalizeCompositeKey(a: nat, parts: seq<string>, b: nat)
    requires |parts| > 0 && |parts[0]| > 0 && |parts[|parts| - 1]| > 0
    requires forall i :: 0 <= i < |parts| ==> Nul !in parts[i]
    ensures NormalizeKey(Nuls(a) + Join(parts, [Nul]) + Nuls(b)) == Join(parts, NulReplacement)
  {
    var m := Join(parts, [Nul]);
    JoinFirst(parts, [Nul]);
    JoinLast(parts, [Nul]);
    var last := parts[|parts| - 1];
    assert m[0] == parts[0][0] && m[|m| - 1] == last[|last| - 1];
    TrimNulUnique(a, m, b);
    ReplaceNulJoin(parts);
  }

  /** The example of the composite-key normalisation. */
  lemma NormalizeKeyExample()
    ensures NormalizeKey("\0K1\0K2\0") == "K1__K2"
    ensures NormalizeKey("K1") == "K1"
  {
    ExampleJoins();
    NormalizeCompositeKey(1, ["K1", "K2"], 1);
  }

  /** An empty middle component leaves two replacements side by side. */
  lemma NormalizeKeyEmptyMiddle()
    ensures NormalizeKey("\0a\0\0b\0") == "a____b"
  {
    var parts := ["a", "", "b"];
    assert parts[1..] == ["", "b"] && parts[1..][1..] == ["b"];
    assert Join(["", "b"], [Nul]) == "\0b";
    assert Join(parts, [Nul]) == "a\0\0b";
    assert Join(parts, NulReplacement) == "a____b";
    assert "\0a\0\0b\0" == Nuls(1) + Join(parts, [Nul]) + Nuls(1);
    NormalizeCompositeKey(1, parts, 1);
  }

  lemma ExampleJoins()
    ensures "\0K1\0K2\0" == Nuls(1) + Join(["K1", "K2"], [Nul]) + Nuls(1)
    ensures Join(["K1", "K2"], [Nul]) == "K1\0K2"
    ensures Join(["K1", "K2"], NulReplacement) == "K1__K2"
  {
    var parts := ["K1", "K2"];
    assert parts[1..] == ["K2"];
  }

  /** Two different raw keys can share a primary key. */
  lemma NormalizeKeyNotInjective()
    ensures "a\0b" != "a__b" && NormalizeKey("a\0b") == NormalizeKey("a__b")
  {
    assert "a\0b"[1] != "a__b"[1];
    var parts := ["a", "b"];
    assert parts[1..] == ["b"];
    assert Join(parts, [Nul]) == "a\0b";
    assert Join(parts, NulReplacement) == "a__b";
    ReplaceNulJoin(parts);
    assert "a\0b" == Nuls(0) + "a\0b" + Nuls(0);
    TrimNulUnique(0, "a\0b", 0);
  }

  // ---------------------------------------------------------------------
  // Data
  // ---------------------------------------------------------------------

  /**
   * The data before injection: the decoded object, or `{"value": text}` when
   * the value is not a JSON object; None when it is the JSON literal `null`,
   * which leaves a nil map that the following assignment panics on.
   */
  function BaseData(parsed: Parsed, value: string): (r: Option<Object>)
    ensures parsed.ParsedNull? <==> r.None?
    ensures parsed.ParsedObject? ==> r == Some(parsed.obj)
    ensures parsed.NotObject? ==> r.Some? && r.value.Keys == {ValueField} && r.value[ValueField] == JString(value)
  {
    match parsed
    case ParsedObject(obj) => Some(obj)
    case ParsedNull => None
    case NotObject => Some(map[ValueField := JString(value)])
  }

  /** Sets the three reserved fields, overwriting any the chaincode wrote. */
  function InjectReserved(base: Object, txId: string, txDateMs: int, key: string): (data: Object)
    ensures data.Keys == base.Keys + {TxIdField, DateField, PrimaryKeyField}
    ensures data[TxIdField] == JString(txId)
    ensures data[DateField] == JNumber(txDateMs)
    ensures data[PrimaryKeyField] == JString(key)
    ensures forall f :: f in base && !IsReserved(f) ==> data[f] == base[f]
  {
    base[TxIdField := JString(txId)][DateField := JNumber(txDateMs)][PrimaryKeyField := JString(key)]
  }

  function StripReserved(data: Object): Object {
    data - {TxIdField, DateField, PrimaryKeyField}
  }

  /**
   * Deleting the reserved fields from a document's data gives back the
   * chaincode's object, provided the chaincode did not use those names.
   */
  lemma StripInjected(base: Object, txId: string, txDateMs: int, key: string)
    ensures StripReserved(InjectReserved(base, txId, txDateMs, key)) == StripReserved(base)
    ensures (forall f :: f in base ==> !IsReserved(f)) ==>
      StripReserved(InjectReserved(base, txId, txDateMs, key)) == base
  {
    var data := InjectReserved(base, txId, txDateMs, key);
    assert StripReserved(data).Keys == StripReserved(base).Keys;
  }

  /** The document for one write, or None for the nil-map panic. */
  function BuildDocument(codec: JsonCodec, meta: TxMeta, namespace: string, w: KvWrite): (r: Option<Document>)
    ensures r.None? <==> codec.parse(w.value).ParsedNull?
    ensures r.Some? ==> DocWellFormed(r.value)
    ensures r.Some? ==> var d := r.value;
      && d.primaryKey == NormalizeKey(w.key)
      && d.chaincodeId == namespace
      && d.channelId == meta.channelId && d.txId == meta.txId
      && d.txDate == meta.txDateMs && d.blockNumber == meta.blockNumber
      && StripReserved(d.data) == StripReserved(BaseData(codec.parse(w.value), w.value).value)
  {
    var base :- BaseData(codec.parse(w.value), w.value);
    var key := NormalizeKey(w.key);
    StripInjected(base, meta.txId, meta.txDateMs, key);
    Some(Document(
      txDate := meta.txDateMs,
      txId := meta.txId,
      blockNumber := meta.blockNumber,
      channelId := meta.channelId,
      data := InjectReserved(base, meta.txId, meta.txDateMs, key),
      chaincodeId := namespace,
      primaryKey := key))
  }

  /** A write whose key holds no separator is stored under that key, with the write's data and the reserved fields. */
  lemma BuildPlainKey(codec: JsonCodec, meta: TxMeta, namespace: string, w: KvWrite, base: Object)
    requires Nul !in w.key && BaseData(codec.parse(w.value), w.value) == Some(base)
    ensures BuildDocument(codec, meta, namespace, w) == Some(Document(
      meta.txDateMs, meta.txId, meta.blockNumber, meta.channelId,
      InjectReserved(base, meta.txId, meta.txDateMs, w.key), namespace, w.key))
  {
  }
}

=== FILE: elasticsearch.dfy ===
/**
 * The Elasticsearch sink (pkg/listener/elasticsearch.go): a response
 * becomes one `_bulk` request whose body has two NDJSON lines per added
 * document, an `index` action naming the index and id and then the
 * document's data.
 *
 * The delete actions are written to a buffer declared inside the loop,
 * which shadows the request body, so they never reach the request.
 * `BulkBodyCorrected` is the body with them.
 */
module Elasticsearch {
  import opened Wrappers
  import opened Json
  import opened Documents
  import opened Blocks
  import opened Batches
  import opened Listener

  /** The index of a document: its channel and chaincode joined by `_`. */
  function IndexName(d: Document): (s: string)
    ensures |s| == |d.channelId| + 1 + |d.chaincodeId|
    ensures s[..|d.channelId|] == d.channelId && s[|d.channelId|] == '_'
    ensures s[|d.channelId| + 1..] == d.chaincodeId
  {
    d.channelId + "_" + d.chaincodeId
  }

  /** The bulk `index` action line for id `pk` in index `idx`, newline included. */
  function IndexLine(idx: string, pk: string): string {
    "{ \"index\" : {\"_index\": \"" + idx + "\",  \"_id\" : \"" + pk + "\" } }\n"
  }

  /** The bulk `delete` action line the source formats for a removed document. */
  function DeleteLine(idx: string, pk: string): string {
    "{ \"delete\" : { \"_index\" : \"" + idx + "\", \"_id\" : \"" + pk + "\" } }\n"
  }

  datatype SinkError =
    | TransformFailed(cause: BlockError)
    | MarshalFailed(key: string)
    | BulkFailed
    | BulkErrorReply(status: int, errorType: string, reason: string)
    | UnparsableReply

  /** What the cluster answers to the bulk request. */
  datatype BulkReply =
    | Accepted
    | TransportError
    | ErrorReply(status: int, errorType: string, reason: string)
    | UnparsableErrorReply

  /** The bulk request sent, if any, and the error returned, if any. */
  datatype Run = Run(request: Option<string>, err: Option<SinkError>)

  /** The two lines a document contributes: its bulk action and its source. */
  datatype BulkItem = BulkItem(action: string, source: string)

  function ItemText(it: BulkItem): string {
    it.action + it.source
  }

  /**
   * The items of the added documents at `keys`, in order: its `index`
   * action, then its marshalled data and a newline. The first data that
   * does not marshal is the error.
   */
  function AddItems(codec: JsonCodec, m: map<string, Document>, keys: seq<string>): (r: Result<seq<BulkItem>, SinkError>)
    requires forall i :: 0 <= i < |keys| ==> keys[i] in m
    ensures r.Failure? <==> exists i :: 0 <= i < |keys| && codec.marshal(m[keys[i]].data).None?
    ensures r.Failure? ==> r.error.MarshalFailed?
    ensures r.Success? ==> |r.value| == |keys|
    ensures r.Success? ==> forall i :: 0 <= i < |keys| ==>
      && codec.marshal(m[keys[i]].data).Some?
      && r.value[i] == BulkItem(IndexLine(IndexName(m[keys[i]]), m[keys[i]].primaryKey), codec.marshal(m[keys[i]].data).value + "\n")
    decreases |keys|
  {
    if keys == [] then Success([])
    else
      assert forall i :: 1 <= i < |keys| ==> keys[i] == keys[1..][i - 1];
      var d := m[keys[0]];
      match codec.marshal(d.data)
      case None => Failure(MarshalFailed(keys[0]))
      case Some(json) =>
        var rest :- AddItems(codec, m, keys[1..]);
        Success([BulkItem(IndexLine(IndexName(d), d.primaryKey), json + "\n")] + rest)
  }

  /** The text of a sequence of items, end to end. */
  function ItemsText(items: seq<BulkItem>): string
    decreases |items|
  {
    if items == [] then [] else ItemText(items[0]) + ItemsText(items[1..])
  }

  lemma ItemsTextEmpty(items: seq<BulkItem>)
    requires items != [] ==> |items[0].action| > 0
    ensures ItemsText(items) == [] <==> items == []
  {
  }

  lemma {:induction false} ItemsTextAppend(a: seq<BulkItem>, b: seq<BulkItem>)
    ensures ItemsText(a + b) == ItemsText(a) + ItemsText(b)
    decreases |a|
  {
    if a == [] {
      assert a + b == b;
    } else {
      assert (a + b)[1..] == a[1..] + b;
      ItemsTextAppend(a[1..], b);
    }
  }

  /** `t` occurs in `s` as a contiguous run. */
  predicate Occurs(t: string, s: string) {
    exists lo :: 0 <= lo <= |s| && t <= s[lo..]
  }

  /** The text of item `i` occurs in the text of all items, right after the text of those before it. */
  lemma ItemTextInside(items: seq<BulkItem>, i: nat)
    requires i < |items|
    ensures Occurs(ItemText(items[i]), ItemsText(items))
  {
    var before, x, after := items[..i], items[i], items[i + 1..];
    assert items[i..] == [x] + after;
    assert items == before + items[i..];
    ItemsTextAppend(before, [x] + after);
    assert ([x] + after)[1..] == after;
    var t := ItemText(x);
    var rest := t + ItemsText(after);
    var whole := ItemsText(before) + rest;
    assert ItemsText(items) == whole;
    assert whole[|ItemsText(before)|..] == rest;
    assert t <= rest;
  }

  /** The delete action lines of the removed documents at `keys`, in order. */
  function DeleteLines(m: map<string, Document>, keys: seq<string>): (lines: seq<string>)
    requires forall i :: 0 <= i < |keys| ==> keys[i] in m
    ensures |lines| == |keys|
    ensures forall i :: 0 <= i < |keys| ==> lines[i] == DeleteLine(IndexName(m[keys[i]]), m[keys[i]].primaryKey)
  {
    seq(|keys|, i requires 0 <= i < |keys| => DeleteLine(IndexName(m[keys[i]]), m[keys[i]].primaryKey))
  }

  /**
   * The body `StoreBulk` and `Store` send: the add documents' lines, with
   * no chaincode filtered out and nothing from the removed documents.
   */
  function BulkBody(codec: JsonCodec, resp: Response, order: seq<string>): (r: Result<string, SinkError>)
    requires Enumerates(order, resp.toAdd)
    ensures r.Failure? <==> exists k :: k in resp.toAdd && codec.marshal(resp.toAdd[k].data).None?
    ensures r.Failure? ==> r.error.MarshalFailed?
    ensures r.Success? ==> (r.value == [] <==> resp.toAdd == map[])
    ensures r.Success? ==> AddItems(codec, resp.toAdd, order).Success? && r.value == ItemsText(AddItems(codec, resp.toAdd, order).value)
  {
    match AddItems(codec, resp.toAdd, order)
    case Failure(e) =>
      Failure(e)
    case Success(items) =>
      assert forall k :: k in resp.toAdd ==> exists i :: 0 <= i < |order| && order[i] == k;
      ItemsTextEmpty(items);
      Success(ItemsText(items))
  }

  /**
   * Every added document, whatever its chaincode, has its two lines in the
   * body: its `index` line naming its index and id, then its data.
   */
  lemma EveryAddIsIndexed(codec: JsonCodec, resp: Response, order: seq<string>, k: string)
    requires Enumerates(order, resp.toAdd)
    requires BulkBody(codec, resp, order).Success?
    requires k in resp.toAdd
    ensures codec.marshal(resp.toAdd[k].data).Some?
    ensures var d := resp.toAdd[k];
      Occurs(IndexLine(IndexName(d), d.primaryKey) + (codec.marshal(d.data).value + "\n"), BulkBody(codec, resp, order).value)
  {
    var items := AddItems(codec, resp.toAdd, order).value;
    var i :| 0 <= i < |order| && order[i] == k;
    var d := resp.toAdd[k];
    assert items[i] == BulkItem(IndexLine(IndexName(d), d.primaryKey), codec.marshal(d.data).value + "\n");
    ItemTextInside(items, i);
  }

  /** The removed documents do not affect the body: two responses adding the same documents send the same request. */
  lemma BodyIgnoresRemovals(codec: JsonCodec, r1: Response, r2: Response, order: seq<string>)
    requires Enumerates(order, r1.toAdd) && r1.toAdd == r2.toAdd
    ensures BulkBody(codec, r1, order) == BulkBody(codec, r2, order)
  {
  }

  /** The body with the delete actions after the index actions, as the second loop evidently intends. */
  function BulkBodyCorrected(codec: JsonCodec, resp: Response, addOrder: seq<string>, removeOrder: seq<string>)
    : (r: Result<string, SinkError>)
    requires Enumerates(addOrder, resp.toAdd) && Enumerates(removeOrder, resp.toRemove)
    ensures r.Failure? <==> BulkBody(codec, resp, addOrder).Failure?
    ensures r.Success? ==> r.value == BulkBody(codec, resp, addOrder).value + Flatten(DeleteLines(resp.toRemove, removeOrder))
    ensures r.Success? ==> (r.value == [] <==> resp.toAdd == map[] && resp.toRemove == map[])
  {
    match BulkBody(codec, resp, addOrder)
    case Failure(e) => Failure(e)
    case Success(body) =>
      DeleteLinesEmpty(resp.toRemove, removeOrder);
      Success(body + Flatten(DeleteLines(resp.toRemove, removeOrder)))
  }

  lemma DeleteLinesEmpty(m: map<string, Document>, keys: seq<string>)
    requires forall i :: 0 <= i < |keys| ==> keys[i] in m
    ensures Flatten(DeleteLines(m, keys)) == [] <==> keys == []
  {
    var deletes := DeleteLines(m, keys);
    if keys != [] {
      var d := m[keys[0]];
      assert deletes[0] == DeleteLine(IndexName(d), d.primaryKey);
      assert deletes[0][0] == '{';
      assert Flatten(deletes) == deletes[0] + Flatten(deletes[1..]);
    }
  }

  /**
   * A response that only removes documents sends no request at all; with
   * the corrected body it sends one carrying a delete line per removal.
   */
  lemma RemovalsOnlyAreNeverSent(codec: JsonCodec, resp: Response, enum: Enumerator, k: string)
    requires ValidEnumerator(enum)
    requires resp.toAdd == map[] && k in resp.toRemove
    ensures StoreResult(codec, Success(resp), enum, Accepted) == Run(None, None)
    ensures var r := StoreResultCorrected(codec, Success(resp), enum, Accepted);
      r.request.Some? && r.err.None?
  {
    assert Enumerates(enum(resp.toAdd), resp.toAdd) && Enumerates(enum(resp.toRemove), resp.toRemove);
  }

  /** Sending a non-empty body and reading the reply; an empty body sends nothing. */
  function Send(body: string, reply: BulkReply): (r: Run)
    ensures body == [] <==> r.request.None?
    ensures body == [] ==> r.err.None?
    ensures body != [] ==> r.request == Some(body) && (r.err.None? <==> reply.Accepted?)
  {
    if body == [] then Run(None, None)
    else
      match reply
      case Accepted => Run(Some(body), None)
      case TransportError => Run(Some(body), Some(BulkFailed))
      case ErrorReply(status, errorType, reason) => Run(Some(body), Some(BulkErrorReply(status, errorType, reason)))
      case UnparsableErrorReply => Run(Some(body), Some(UnparsableReply))
  }

  /** `Store`/`StoreBulk` after the transformation: its error, or a marshal error, returns before any request. */
  function StoreResult(codec: JsonCodec, res: Result<Response, BlockError>, enum: Enumerator, reply: BulkReply): (r: Run)
    requires ValidEnumerator(enum)
    ensures res.Failure? ==> r == Run(None, Some(TransformFailed(res.error)))
    ensures res.Success? && BulkBody(codec, res.value, enum(res.value.toAdd)).Failure? ==> r.request.None? && r.err.Some?
    ensures res.Success? && res.value.toAdd == map[] ==> r == Run(None, None)
    ensures res.Success? && BulkBody(codec, res.value, enum(res.value.toAdd)).Success? ==>
      r == Send(BulkBody(codec, res.value, enum(res.value.toAdd)).value, reply)
  {
    match res
    case Failure(e) => Run(None, Some(TransformFailed(e)))
    case Success(resp) =>
      assert Enumerates(enum(resp.toAdd), resp.toAdd);
      match BulkBody(codec, resp, enum(resp.toAdd))
      case Failure(e) => Run(None, Some(e))
      case Success(body) => Send(body, reply)
  }

  /** `StoreResult` with the corrected body. */
  function StoreResultCorrected(codec: JsonCodec, res: Result<Response, BlockError>, enum: Enumerator, reply: BulkReply): (r: Run)
    requires ValidEnumerator(enum)
    ensures res.Failure? ==> r == Run(None, Some(TransformFailed(res.error)))
    ensures res.Success? ==>
      var resp := res.value;
      (resp.toAdd != map[] || resp.toRemove != map[]) && BulkBody(codec, resp, enum(resp.toAdd)).Success? ==>
        r.request.Some?
  {
    match res
    case Failure(e) => Run(None, Some(TransformFailed(e)))
    case Success(resp) =>
      assert Enumerates(enum(resp.toAdd), resp.toAdd) && Enumerates(enum(resp.toRemove), resp.toRemove);
      match BulkBodyCorrected(codec, resp, enum(resp.toAdd), enum(resp.toRemove))
      case Failure(e) => Run(None, Some(e))
      case Success(body) => Send(body, reply)
  }

  function Store(codec: JsonCodec, b: Block, enum: Enumerator, reply: BulkReply): (r: Run)
    requires ValidEnumerator(enum)
    ensures BlockToDocuments(codec, b).Failure? ==> r.request.None? && r.err.Some?
  {
    StoreResult(codec, BlockToDocuments(codec, b), enum, reply)
  }

  function StoreBulk(codec: JsonCodec, bs: seq<Block>, enum: Enumerator, reply: BulkReply): (r: Run)
    requires ValidEnumerator(enum)
    ensures BlocksToDocuments(codec, bs).Failure? ==> r.request.None? && r.err.Some?
    ensures bs == [] ==> r == Run(None, None)
  {
    StoreResult(codec, BlocksToDocuments(codec, bs), enum, reply)
  }

  /** `Store` builds its request exactly as `StoreBulk` does for a batch of that one block. */
  lemma StoreBulkOfOneBlock(codec: JsonCodec, b: Block, enum: Enumerator, reply: BulkReply)
    requires ValidEnumerator(enum)
    ensures StoreBulk(codec, [b], enum, reply) == Store(codec, b, enum, reply)
  {
    SingleBlockBatch(codec, b);
  }
}

=== FILE: json.dfy ===
/**
 * The slice of `encoding/json` the program relies on. Parsing and marshalling
 * are library code the model does not reimplement: they enter as the two
 * function values of a `JsonCodec`, so every property proved here holds for
 * any parser and any marshaller.
 */
module Json {
  import opened Wrappers

  /** A decoded JSON value; numbers are kept abstract as integers. */
  datatype Json =
    | JNull
    | JBool(b: bool)
    | JNumber(n: int)
    | JString(s: string)
    | JArray(items: seq<Json>)
    | JObject(fields: map<string, Json>)

  /** A Go `map[string]interface{}`. */
  type Object = map<string, Json>

  /**
   * What `json.Unmarshal(value, &m)` with `m map[string]interface{}` leaves:
   * an object; the literal `null`, which succeeds and leaves `m` nil; or an
   * error (not JSON, or JSON that is not an object).
   */
  datatype Parsed = ParsedObject(obj: Object) | ParsedNull | NotObject

  /** `json.Unmarshal` into a map and `json.Marshal` of a map (None: an error). */
  datatype JsonCodec = JsonCodec(parse: string -> Parsed, marshal: Object -> Option<string>)
}

=== FILE: listener.dfy ===
/**
 * What the three sinks (pkg/listener) share: the order in which Go walks a
 * map, and the chaincodes whose documents two of them skip.
 */
module Listener {
  import opened Documents

  /**
   * `order` lists every key of `m` exactly once: one of the orders a Go
   * `range` over the map may take. Go leaves the order unspecified, so the
   * sinks take it as a parameter and their properties hold for every one.
   */
  predicate Enumerates<V>(order: seq<string>, m: map<string, V>) {
    && (forall i :: 0 <= i < |order| ==> order[i] in m)
    && (forall k :: k in m ==> k in order)
    && (forall i, j :: 0 <= i < j < |order| ==> order[i] != order[j])
  }

  /** An iteration order for every map of documents. */
  type Enumerator = map<string, Document> -> seq<string>

  ghost predicate ValidEnumerator(enum: Enumerator) {
    forall m :: Enumerates(enum(m), m)
  }

  /** Every map has an iteration order, so the sinks' preconditions can be met. */
  lemma {:induction false} EnumerationExists<V>(m: map<string, V>)
    ensures exists order :: Enumerates(order, m)
    decreases |m.Keys|
  {
    if m.Keys == {} {
      assert Enumerates([], m);
    } else {
      var k :| k in m.Keys;
      var rest := m - {k};
      assert rest.Keys == m.Keys - {k};
      EnumerationExists(rest);
      var order :| Enumerates(order, rest);
      EnumeratesCons(k, order, m);
    }
  }

  /** One iteration order of `m`, chosen among those that exist. */
  ghost function Order(m: map<string, Document>): (order: seq<string>)
    ensures Enumerates(order, m)
  {
    EnumerationExists(m);
    var order :| Enumerates(order, m); order
  }

  /** Some enumerator is valid, so the sinks that require one can be called. */
  lemma ValidEnumeratorExists()
    ensures exists enum: Enumerator :: ValidEnumerator(enum)
  {
    var enum: Enumerator := m => Order(m);
    assert forall m :: enum(m) == Order(m);
    assert ValidEnumerator(enum);
  }

  /** An order of the other keys, preceded by `k`, is an order of `m`. */
  lemma EnumeratesCons<V>(k: string, order: seq<string>, m: map<string, V>)
    requires k in m && Enumerates(order, m - {k})
    ensures Enumerates([k] + order, m)
  {
    var o := [k] + order;
    forall i, j | 0 <= i < j < |o|
      ensures o[i] != o[j]
    {
      assert o[j] == order[j - 1];
      if i > 0 {
        assert o[i] == order[i - 1];
      } else {
        assert order[j - 1] in m - {k};
      }
    }
    forall k' | k' in m
      ensures k' in o
    {
      if k' != k {
        assert k' in m - {k};
      }
    }
  }

  /** The lifecycle system chaincodes, whose documents the Meilisearch and SQL sinks skip. */
  predicate IsSystemChaincode(chaincodeId: string) {
    chaincodeId == "lscc" || chaincodeId == "_lifecycle"
  }

  /** The keys of `order`, in order, whose documents are not from a system chaincode. */
  function KeptKeys(order: seq<string>, m: map<string, Document>): (ks: seq<string>)
    requires forall i :: 0 <= i < |order| ==> order[i] in m
    ensures forall i :: 0 <= i < |ks| ==> ks[i] in m && !IsSystemChaincode(m[ks[i]].chaincodeId)
    ensures forall k :: k in ks <==> k in order && k in m && !IsSystemChaincode(m[k].chaincodeId)
    ensures |ks| <= |order|
    ensures (forall i, j :: 0 <= i < j < |order| ==> order[i] != order[j]) ==>
      forall i, j :: 0 <= i < j < |ks| ==> ks[i] != ks[j]
    decreases |order|
  {
    if order == [] then []
    else
      var rest := KeptKeys(order[1..], m);
      assert forall k :: k in order <==> k == order[0] || k in order[1..];
      assert forall i :: 1 <= i < |order| ==> order[i] == order[1..][i - 1];
      if IsSystemChaincode(m[order[0]].chaincodeId) then rest
      else
        assert order[0] !in rest <== forall i, j :: 0 <= i < j < |order| ==> order[i] != order[j];
        [order[0]] + rest
  }

  /**
   * The primary keys of the documents at the kept keys of `order`: with a
   * map keyed by primary key, the keys of `m` not from a system chaincode.
   */
  function KeptPrimaryKeys(m: map<string, Document>, order: seq<string>): (ids: seq<string>)
    requires Enumerates(order, m)
    ensures forall k :: k in m && !IsSystemChaincode(m[k].chaincodeId) ==> m[k].primaryKey in ids
    ensures forall id :: id in ids ==>
      exists k :: k in m && !IsSystemChaincode(m[k].chaincodeId) && m[k].primaryKey == id
  {
    var kept := KeptKeys(order, m);
    var ids := seq(|kept|, i requires 0 <= i < |kept| => m[kept[i]].primaryKey);
    assert forall k :: k in kept ==> m[k].primaryKey in ids by {
      forall k | k in kept
        ensures m[k].primaryKey in ids
      {
        var i :| 0 <= i < |kept| && kept[i] == k;
        assert ids[i] == m[k].primaryKey;
      }
    }
    assert forall id :: id in ids ==> exists i :: 0 <= i < |kept| && ids[i] == id;
    ids
  }

  /** The sequences of `ss` joined end to end. */
  function Flatten<T>(ss: seq<seq<T>>): seq<T>
    decreases |ss|
  {
    if ss == [] then [] else ss[0] + Flatten(ss[1..])
  }

  lemma {:induction false} FlattenAppend<T>(a: seq<seq<T>>, b: seq<seq<T>>)
    ensures Flatten(a + b) == Flatten(a) + Flatten(b)
    decreases |a|
  {
    if a == [] {
      assert a + b == b;
    } else {
      assert (a + b)[1..] == a[1..] + b;
      FlattenAppend(a[1..], b);
    }
  }
}

=== FILE: meilisearch.dfy ===
/**
 * The Meilisearch sink (pkg/listener/meilisearch.go): a response becomes
 * one `AddOrUpdate` of the kept documents' data and one `Deletes` of the
 * kept removed documents' primary keys, in that order.
 *
 * The client is not modelled: whether each call (with its wait for the
 * update) succeeds is an input.
 */
module Meilisearch {
  import opened Wrappers
  import opened Json
  import opened Documents
  import opened Blocks
  import opened Batches
  import opened Listener

  /** The field Meilisearch indexes documents by: the key the transformation injects. */
  const IndexPrimaryKey: string := PrimaryKeyField

  /**
   * What `storeDocs` builds from a response: the documents to add, their
   * keys and primary keys, the keys to delete, and the sizes of the two
   * maps it logs.
   */
  datatype Plan = Plan(
    adds: seq<Object>, addedKeys: seq<string>, addedIds: seq<string>, deletes: seq<string>,
    addCount: nat, removeCount: nat)

  datatype Call = AddOrUpdate(docs: seq<Object>) | Deletes(ids: seq<string>)

  datatype SinkError = TransformFailed(cause: BlockError) | AddFailed | DeleteFailed

  /**
   * The two lines `storeDocs` logs on success: the number of added
   * documents with a sample of the kept ones' primary keys, and the number
   * of removed documents.
   */
  datatype LogLine = LogLine(added: nat, sample: seq<string>, removed: nat)

  /** The calls made, in order, the error returned, if any, and what was logged. */
  datatype Run = Run(calls: seq<Call>, err: Option<SinkError>, logged: Option<LogLine>)

  function DataOf(m: map<string, Document>, keys: seq<string>): (ds: seq<Object>)
    requires forall i :: 0 <= i < |keys| ==> keys[i] in m
    ensures |ds| == |keys| && forall i :: 0 <= i < |keys| ==> ds[i] == m[keys[i]].data
  {
    seq(|keys|, i requires 0 <= i < |keys| => m[keys[i]].data)
  }

  /**
   * The lists `storeDocs` builds: documents of system chaincodes are left
   * out of both; the add list holds the others' data and the delete list
   * their primary keys, each in the maps' iteration order.
   */
  function PlanFor(resp: Response, addOrder: seq<string>, removeOrder: seq<string>): (p: Plan)
    requires Enumerates(addOrder, resp.toAdd) && Enumerates(removeOrder, resp.toRemove)
    ensures |p.adds| == |p.addedKeys|
    ensures forall k :: k in p.addedKeys <==> k in resp.toAdd && !IsSystemChaincode(resp.toAdd[k].chaincodeId)
    ensures forall i, j :: 0 <= i < j < |p.addedKeys| ==> p.addedKeys[i] != p.addedKeys[j]
    ensures forall i :: 0 <= i < |p.adds| ==> p.adds[i] == resp.toAdd[p.addedKeys[i]].data
    ensures |p.addedIds| == |p.addedKeys| && forall i :: 0 <= i < |p.addedIds| ==> p.addedIds[i] == resp.toAdd[p.addedKeys[i]].primaryKey
    ensures p.addCount == |resp.toAdd| && p.removeCount == |resp.toRemove|
    ensures forall k :: k in resp.toRemove && !IsSystemChaincode(resp.toRemove[k].chaincodeId) ==>
      resp.toRemove[k].primaryKey in p.deletes
    ensures forall id :: id in p.deletes ==>
      exists k :: k in resp.toRemove && !IsSystemChaincode(resp.toRemove[k].chaincodeId) && resp.toRemove[k].primaryKey == id
  {
    var added := KeptKeys(addOrder, resp.toAdd);
    var ids := seq(|added|, i requires 0 <= i < |added| => resp.toAdd[added[i]].primaryKey);
    Plan(DataOf(resp.toAdd, added), added, ids, KeptPrimaryKeys(resp.toRemove, removeOrder), |resp.toAdd|, |resp.toRemove|)
  }

  /** With a response keyed by primary key, the delete list is exactly the kept removed keys. */
  lemma DeletesAreKeptKeys(resp: Response, addOrder: seq<string>, removeOrder: seq<string>, k: string)
    requires Enumerates(addOrder, resp.toAdd) && Enumerates(removeOrder, resp.toRemove)
    requires WellFormed(resp)
    ensures k in PlanFor(resp, addOrder, removeOrder).deletes <==>
      k in resp.toRemove && !IsSystemChaincode(resp.toRemove[k].chaincodeId)
  {
  }

  /**
   * Every added document carries its own key in the field the index uses
   * as primary key, so Meilisearch stores it under the response's key.
   */
  lemma AddedDocumentsCarryIndexKey(resp: Response, addOrder: seq<string>, removeOrder: seq<string>, i: nat)
    requires Enumerates(addOrder, resp.toAdd) && Enumerates(removeOrder, resp.toRemove)
    requires WellFormed(resp)
    requires i < |PlanFor(resp, addOrder, removeOrder).adds|
    ensures var p := PlanFor(resp, addOrder, removeOrder);
      IndexPrimaryKey in p.adds[i] && p.adds[i][IndexPrimaryKey] == JString(p.addedKeys[i])
  {
  }

  /** What `storeDocs` logs once both calls have succeeded: at most ten primary keys of the kept added documents. */
  function LogOf(p: Plan): (l: LogLine)
    ensures l.added == p.addCount && l.removed == p.removeCount
    ensures l.sample == LogSample(p.addedIds)
  {
    LogLine(p.addCount, LogSample(p.addedIds), p.removeCount)
  }

  /**
   * `storeDocs`: `AddOrUpdate` only when there is something to add, then
   * `Deletes` only when there is something to delete and the add (if made)
   * succeeded. The counts and the key sample are logged only when neither
   * call failed, after both.
   */
  function StoreDocs(p: Plan, addOk: bool, deleteOk: bool): (r: Run)
    ensures (AddOrUpdate(p.adds) in r.calls) <==> p.adds != []
    ensures (Deletes(p.deletes) in r.calls) <==> p.deletes != [] && (p.adds == [] || addOk)
    ensures forall c :: c in r.calls ==> c == AddOrUpdate(p.adds) || c == Deletes(p.deletes)
    ensures |r.calls| <= 2
    ensures |r.calls| == 2 ==> r.calls[0].AddOrUpdate? && r.calls[1].Deletes?
    ensures r.err.None? <==> (p.adds == [] || addOk) && (p.deletes == [] || deleteOk)
    ensures r.err == Some(AddFailed) <==> p.adds != [] && !addOk
    ensures r.err == Some(DeleteFailed) <==> p.deletes != [] && (p.adds == [] || addOk) && !deleteOk
    ensures r.logged.Some? <==> r.err.None?
    ensures r.logged.Some? ==> r.logged.value.sample <= p.addedIds && r.logged.value.added == p.addCount
    ensures r.logged.Some? ==> r.logged.value == LogOf(p)
  {
    var addCalls := if p.adds != [] then [AddOrUpdate(p.adds)] else [];
    if p.adds != [] && !addOk then Run(addCalls, Some(AddFailed), None)
    else if p.deletes == [] then Run(addCalls, None, Some(LogOf(p)))
    else if deleteOk then Run(addCalls + [Deletes(p.deletes)], None, Some(LogOf(p)))
    else Run(addCalls + [Deletes(p.deletes)], Some(DeleteFailed), None)
  }

  /** At most one call of each kind is made, and an add always precedes a delete. */
  lemma AddsPrecedeDeletes(p: Plan, addOk: bool, deleteOk: bool)
    ensures var r := StoreDocs(p, addOk, deleteOk);
      forall i, j :: 0 <= i < |r.calls| && 0 <= j < |r.calls| && r.calls[i].AddOrUpdate? && r.calls[j].Deletes? ==> i < j
    ensures var r := StoreDocs(p, addOk, deleteOk);
      forall i, j :: 0 <= i < j < |r.calls| ==> r.calls[i] != r.calls[j]
  {
  }

  /** The first ten of `keys`, or all of them when there are fewer: the sample `storeDocs` logs. */
  function LogSample(keys: seq<string>): (s: seq<string>)
    ensures |s| == if |keys| < 10 then |keys| else 10
    ensures s <= keys
  {
    keys[..if |keys| < 10 then |keys| else 10]
  }

  /** `Store`/`StoreBulk` after the transformation: its error returns before any call. */
  function StoreResult(res: Result<Response, BlockError>, enum: Enumerator, addOk: bool, deleteOk: bool): (r: Run)
    requires ValidEnumerator(enum)
    ensures res.Failure? ==> r == Run([], Some(TransformFailed(res.error)), None)
    ensures res.Success? ==>
      r == StoreDocs(PlanFor(res.value, enum(res.value.toAdd), enum(res.value.toRemove)), addOk, deleteOk)
  {
    match res
    case Failure(e) => Run([], Some(TransformFailed(e)), None)
    case Success(resp) =>
      assert Enumerates(enum(resp.toAdd), resp.toAdd) && Enumerates(enum(resp.toRemove), resp.toRemove);
      StoreDocs(PlanFor(resp, enum(resp.toAdd), enum(resp.toRemove)), addOk, deleteOk)
  }

  /**
   * After a successful store the log reports the sizes of both maps and up
   * to ten primary keys, each of an added document not from a system chaincode.
   */
  lemma LoggedSampleIsKeptAdds(resp: Response, enum: Enumerator, addOk: bool, deleteOk: bool)
    requires ValidEnumerator(enum)
    requires StoreResult(Success(resp), enum, addOk, deleteOk).err.None?
    ensures var l := StoreResult(Success(resp), enum, addOk, deleteOk).logged;
      && l.Some? && l.value.added == |resp.toAdd| && l.value.removed == |resp.toRemove| && |l.value.sample| <= 10
      && forall i :: 0 <= i < |l.value.sample| ==>
        exists k :: k in resp.toAdd && !IsSystemChaincode(resp.toAdd[k].chaincodeId) && resp.toAdd[k].primaryKey == l.value.sample[i]
  {
    assert Enumerates(enum(resp.toAdd), resp.toAdd) && Enumerates(enum(resp.toRemove), resp.toRemove);
    var p := PlanFor(resp, enum(resp.toAdd), enum(resp.toRemove));
    var sample := LogSample(p.addedIds);
    forall i | 0 <= i < |sample|
      ensures exists k :: k in resp.toAdd && !IsSystemChaincode(resp.toAdd[k].chaincodeId) && resp.toAdd[k].primaryKey == sample[i]
    {
      assert sample[i] == p.addedIds[i];
      var k := p.addedKeys[i];
      assert k in p.addedKeys;
    }
  }

  /** `Store`: one block. */
  function Store(codec: JsonCodec, b: Block, enum: Enumerator, addOk: bool, deleteOk: bool): (r: Run)
    requires ValidEnumerator(enum)
    ensures BlockToDocuments(codec, b).Failure? ==> r.calls == [] && r.err == Some(TransformFailed(BlockToDocuments(codec, b).error))
  {
    StoreResult(BlockToDocuments(codec, b), enum, addOk, deleteOk)
  }

  /** `StoreBulk`: a batch of blocks merged as written. */
  function StoreBulk(codec: JsonCodec, bs: seq<Block>, enum: Enumerator, addOk: bool, deleteOk: bool): (r: Run)
    requires ValidEnumerator(enum)
    ensures BlocksToDocuments(codec, bs).Failure? ==> r.calls == [] && r.err.Some?
    ensures bs == [] ==> r == Run([], None, Some(LogLine(0, [], 0)))
  {
    StoreResult(BlocksToDocuments(codec, bs), enum, addOk, deleteOk)
  }

  /** On a single block, `StoreBulk` makes the same calls as `Store`. */
  lemma StoreBulkOfOneBlock(codec: JsonCodec, b: Block, enum: Enumerator, addOk: bool, deleteOk: bool)
    requires ValidEnumerator(enum)
    ensures StoreBulk(codec, [b], enum, addOk, deleteOk) == Store(codec, b, enum, addOk, deleteOk)
  {
    SingleBlockBatch(codec, b);
  }

  /**
   * A key in both maps of a response, from an ordinary chaincode, is sent
   * to `AddOrUpdate` and then to `Deletes`: the index ends without it.
   */
  lemma KeyInBothMapsIsDeletedLast(resp: Response, enum: Enumerator, k: string)
    requires ValidEnumerator(enum)
    requires k in resp.toAdd && !IsSystemChaincode(resp.toAdd[k].chaincodeId)
    requires k in resp.toRemove && !IsSystemChaincode(resp.toRemove[k].chaincodeId)
    ensures var r := StoreResult(Success(resp), enum, true, true);
      && |r.calls| == 2 && r.calls[0].AddOrUpdate? && r.calls[1].Deletes?
      && resp.toRemove[k].primaryKey in r.calls[1].ids
  {
    assert Enumerates(enum(resp.toAdd), resp.toAdd) && Enumerates(enum(resp.toRemove), resp.toRemove);
    var p := PlanFor(resp, enum(resp.toAdd), enum(resp.toRemove));
    assert k in p.addedKeys;
    assert resp.toRemove[k].primaryKey in p.deletes;
  }

  /**
   * The batch of `DeleteThenReAdd`, stored: the document written in the
   * second block is added and then deleted, so the index loses it although
   * the ledger's last write keeps it.
   */
  lemma ReAddedDocumentIsDeleted(codec: JsonCodec, enum: Enumerator)
    requires ValidEnumerator(enum)
    requires !codec.parse("").ParsedNull? && !codec.parse("v").ParsedNull?
    ensures var r := StoreBulk(codec, ReAddBatch(), enum, true, true);
      |r.calls| == 2 && r.calls[0].AddOrUpdate? && r.calls[1].Deletes? && "K" in r.calls[1].ids
  {
    DeleteThenReAdd(codec);
    var resp := BlocksToDocuments(codec, ReAddBatch()).value;
    KeyInBothMapsIsDeletedLast(resp, enum, "K");
  }

  /** `StoreBulk` over the evicting merge. */
  function StoreBulkEvicting(codec: JsonCodec, bs: seq<Block>, enum: Enumerator, addOk: bool, deleteOk: bool): (r: Run)
    requires ValidEnumerator(enum)
    ensures BlocksToDocumentsEvicting(codec, bs).Failure? ==> r.calls == [] && r.err.Some?
    ensures bs == [] ==> r == Run([], None, Some(LogLine(0, [], 0)))
  {
    StoreResult(BlocksToDocumentsEvicting(codec, bs), enum, addOk, deleteOk)
  }

  /** A response with something to add and nothing to remove makes exactly one call, the add. */
  lemma AddsOnly(resp: Response, enum: Enumerator, k: string)
    requires ValidEnumerator(enum)
    requires k in resp.toAdd && !IsSystemChaincode(resp.toAdd[k].chaincodeId) && resp.toRemove == map[]
    ensures var r := StoreResult(Success(resp), enum, true, true);
      |r.calls| == 1 && r.calls[0].AddOrUpdate? && r.err.None?
  {
    assert Enumerates(enum(resp.toAdd), resp.toAdd) && Enumerates(enum(resp.toRemove), resp.toRemove);
    var p := PlanFor(resp, enum(resp.toAdd), enum(resp.toRemove));
    assert k in p.addedKeys;
    assert enum(resp.toRemove) == [];
  }

  /** With the evicting merge the re-added document is only added, never deleted. */
  lemma ReAddedDocumentKept(codec: JsonCodec, enum: Enumerator)
    requires ValidEnumerator(enum)
    requires !codec.parse("").ParsedNull? && !codec.parse("v").ParsedNull?
    ensures var r := StoreBulkEvicting(codec, ReAddBatch(), enum, true, true);
      |r.calls| == 1 && r.calls[0].AddOrUpdate? && r.err.None?
  {
    DeleteThenReAddEvicting(codec);
    AddsOnly(BlocksToDocumentsEvicting(codec, ReAddBatch()).value, enum, "K");
  }
}

=== FILE: peers.dfy ===
/**
 * Peer discovery arithmetic of the sync command (cmd/sync.go):
 * `getChannelHeight` and `getTargetPeers`, taken over the list of peers a
 * discovery query returned. Each peer reports its ledger height, the number
 * of blocks it holds; the last block number is therefore one less.
 */
module Peers {
  import opened Wrappers

  datatype Peer = Peer(url: string, ledgerHeight: nat)

  /** How far behind the channel height a peer may be and still serve blocks. */
  const MaxLag: int := 1000

  /** The greatest ledger height in the list, 0 for no peers. */
  function MaxHeight(peers: seq<Peer>): (m: nat)
    ensures forall i :: 0 <= i < |peers| ==> peers[i].ledgerHeight <= m
    ensures peers != [] ==> exists i :: 0 <= i < |peers| && peers[i].ledgerHeight == m
    ensures peers == [] ==> m == 0
    decreases |peers|
  {
    if peers == [] then 0
    else
      var rest := MaxHeight(peers[1..]);
      assert forall i :: 1 <= i < |peers| ==> peers[i] == peers[1..][i - 1];
      if peers[0].ledgerHeight >= rest then peers[0].ledgerHeight else rest
  }

  function Max(a: int, b: int): int {
    if a >= b then a else b
  }

  /**
   * The loop of `getChannelHeight`: a peer higher than the running value
   * sets it to that peer's height minus one. Each step keeps
   * `max(acc, height - 1)`, so the fold ends at the largest height minus one.
   */
  function HeightFold(acc: nat, peers: seq<Peer>): (h: nat)
    ensures h == Max(acc, MaxHeight(peers) - 1)
    decreases |peers|
  {
    if peers == [] then acc
    else
      var p := peers[0].ledgerHeight;
      HeightFold(if p > acc then p - 1 else acc, peers[1..])
  }

  /**
   * `getChannelHeight`: the number of the last block any peer holds, i.e.
   * the greatest ledger height minus one, and 0 (not an error) when there
   * are no peers or none holds a block.
   */
  function ChannelHeight(peers: seq<Peer>): (h: nat)
    ensures peers == [] ==> h == 0
    ensures h == Max(0, MaxHeight(peers) - 1)
    ensures forall i :: 0 <= i < |peers| ==> peers[i].ledgerHeight <= h + 1
  {
    HeightFold(0, peers)
  }

  /** The peers at most `MaxLag - 1` blocks behind `chHeight`, in input order. */
  function Fresh(peers: seq<Peer>, chHeight: int): (r: seq<Peer>)
    ensures forall p :: p in r <==> p in peers && chHeight - p.ledgerHeight < MaxLag
    ensures |r| <= |peers|
    decreases |peers|
  {
    if peers == [] then []
    else
      var rest := Fresh(peers[1..], chHeight);
      assert forall p :: p in peers <==> p == peers[0] || p in peers[1..];
      if chHeight - peers[0].ledgerHeight < MaxLag then [peers[0]] + rest else rest
  }

  /** `a` is `b` with some elements dropped and the rest kept in order. */
  predicate Subsequence<T(==)>(a: seq<T>, b: seq<T>)
    decreases |b|
  {
    if b == [] then a == []
    else (a != [] && a[0] == b[0] && Subsequence(a[1..], b[1..])) || Subsequence(a, b[1..])
  }

  lemma {:induction false} FreshIsSubsequence(peers: seq<Peer>, chHeight: int)
    ensures Subsequence(Fresh(peers, chHeight), peers)
    decreases |peers|
  {
    if peers != [] {
      FreshIsSubsequence(peers[1..], chHeight);
      var rest := Fresh(peers[1..], chHeight);
      if chHeight - peers[0].ledgerHeight < MaxLag {
        assert ([peers[0]] + rest)[1..] == rest;
      }
    }
  }

  /**
   * `getTargetPeers`: the channel height from one discovery query, then the
   * peers of a second query that are fewer than `MaxLag` blocks behind it.
   * A failed query is the error; both queries are taken to return `peers`.
   */
  function TargetPeers(discovered: Option<seq<Peer>>): (r: Option<seq<Peer>>)
    ensures r.None? <==> discovered.None?
    ensures r.Some? ==> Subsequence(r.value, discovered.value)
    ensures r.Some? ==> forall p :: p in r.value <==>
      p in discovered.value && ChannelHeight(discovered.value) - p.ledgerHeight < MaxLag
  {
    match discovered
    case None => None
    case Some(peers) =>
      FreshIsSubsequence(peers, ChannelHeight(peers));
      Some(Fresh(peers, ChannelHeight(peers)))
  }

  /** A peer of the greatest height is always a target, so the targets are never empty when peers exist. */
  lemma HighestPeerIsTarget(peers: seq<Peer>, i: nat)
    requires i < |peers| && peers[i].ledgerHeight == MaxHeight(peers)
    ensures TargetPeers(Some(peers)).Some? && peers[i] in TargetPeers(Some(peers)).value
  {
    assert peers[i] in peers;
  }

  /** A peer exactly `MaxLag` blocks behind the channel height is dropped. */
  lemma LaggingPeerDropped(peers: seq<Peer>, i: nat)
    requires i < |peers| && peers[i].ledgerHeight + MaxLag <= ChannelHeight(peers)
    ensures peers[i] !in TargetPeers(Some(peers)).value
  {
  }
}

=== FILE: sql.dfy ===
/**
 * The SQL sink (pkg/listener/sql.go): one table per channel, one row per
 * key. `storeDocs` upserts the added documents in batches of 100 and then
 * issues a delete whose id list nothing ever fills.
 *
 * gorm and the database are not modelled: the calls are the output, and
 * `storeDocs` ignores their results.
 */
module Sql {
  import opened Wrappers
  import opened Json
  import opened Documents
  import opened Blocks
  import opened Batches
  import opened Listener

  const PostgresqlDriver: string := "postgres"
  const MySQLDriver: string := "mysql"
  /** Rows per `INSERT … ON CONFLICT UPDATE` statement. */
  const BatchSize: nat := 100

  // ---------------------------------------------------------------------
  // Opening the storage
  // ---------------------------------------------------------------------

  datatype DatabaseStorage = DatabaseStorage(driver: string, tableName: string)

  datatype OpenError = UnsupportedDriver(name: string) | OpenFailed | MigrateFailed

  /**
   * `NewPostgresStorage`: only the `postgres` and `mysql` drivers open; the
   * table is named after the channel. Whether the connection opens and the
   * table migrates are inputs.
   */
  function NewDatabaseStorage(driver: string, channelId: string, openOk: bool, migrateOk: bool)
    : (r: Result<DatabaseStorage, OpenError>)
    ensures driver != PostgresqlDriver && driver != MySQLDriver ==> r == Failure(UnsupportedDriver(driver))
    ensures r.Success? <==> (driver == PostgresqlDriver || driver == MySQLDriver) && openOk && migrateOk
    ensures r.Success? ==> r.value.tableName == channelId && r.value.driver == driver
  {
    if driver != PostgresqlDriver && driver != MySQLDriver then Failure(UnsupportedDriver(driver))
    else if !openOk then Failure(OpenFailed)
    else if !migrateOk then Failure(MigrateFailed)
    else Success(DatabaseStorage(driver, channelId))
  }

  // ---------------------------------------------------------------------
  // Batches
  // ---------------------------------------------------------------------

  /** `xs` cut into runs of `n`, the last one possibly shorter; no run is empty. */
  function Chunks<T>(xs: seq<T>, n: nat): (cs: seq<seq<T>>)
    requires n > 0
    ensures forall i :: 0 <= i < |cs| ==> 0 < |cs[i]| <= n
    ensures forall i :: 0 <= i < |cs| - 1 ==> |cs[i]| == n
    ensures xs == [] <==> cs == []
    decreases |xs|
  {
    if xs == [] then []
    else if |xs| <= n then [xs]
    else
      var rest := Chunks(xs[n..], n);
      assert forall i :: 1 <= i < |rest| + 1 ==> ([xs[..n]] + rest)[i] == rest[i - 1];
      [xs[..n]] + rest
  }

  /** Cutting into batches loses, duplicates and reorders nothing. */
  lemma {:induction false} ChunksFlatten<T>(xs: seq<T>, n: nat)
    requires n > 0
    ensures Flatten(Chunks(xs, n)) == xs
    decreases |xs|
  {
    if xs != [] {
      var cs := Chunks(xs, n);
      if |xs| <= n {
        assert cs[1..] == [];
        assert Flatten(cs) == xs + [];
      } else {
        ChunksFlatten(xs[n..], n);
        assert cs[1..] == Chunks(xs[n..], n);
        assert xs == xs[..n] + xs[n..];
      }
    }
  }

  // ---------------------------------------------------------------------
  // storeDocs
  // ---------------------------------------------------------------------

  /** A table row: id, chaincode and the document's data as JSON text. */
  datatype Record = Record(id: string, chaincode: string, data: string)

  datatype Call = Upsert(rows: seq<Record>) | DeleteIds(ids: seq<string>)

  datatype SinkError = TransformFailed(cause: BlockError) | MarshalFailed(key: string)

  datatype Run = Run(calls: seq<Call>, err: Option<SinkError>)

  /** The ids of the run's final delete statement, if it ends with one. */
  function DeleteList(r: Run): seq<string> {
    if r.calls != [] && r.calls[|r.calls| - 1].DeleteIds? then r.calls[|r.calls| - 1].ids else []
  }

  /** The record of a document whose data marshals to `json`. */
  function RecordOf(d: Document, json: string): Record {
    Record(d.primaryKey, d.chaincodeId, json)
  }

  /** The records of the documents at `keys`, in order; the first data that does not marshal is the error. */
  function Records(codec: JsonCodec, m: map<string, Document>, keys: seq<string>): (r: Result<seq<Record>, SinkError>)
    requires forall i :: 0 <= i < |keys| ==> keys[i] in m
    ensures r.Failure? <==> exists i :: 0 <= i < |keys| && codec.marshal(m[keys[i]].data).None?
    ensures r.Failure? ==> r.error.MarshalFailed?
    ensures r.Success? ==> |r.value| == |keys| && forall i :: 0 <= i < |keys| ==>
      codec.marshal(m[keys[i]].data).Some? && r.value[i] == RecordOf(m[keys[i]], codec.marshal(m[keys[i]].data).value)
    decreases |keys|
  {
    if keys == [] then Success([])
    else
      assert forall i :: 1 <= i < |keys| ==> keys[i] == keys[1..][i - 1];
      match codec.marshal(m[keys[0]].data)
      case None => Failure(MarshalFailed(keys[0]))
      case Some(json) =>
        var rest :- Records(codec, m, keys[1..]);
        Success([RecordOf(m[keys[0]], json)] + rest)
  }

  /** The upserts of `rows`, one per batch. */
  function Upserts(rows: seq<Record>): (cs: seq<Call>)
    ensures forall i :: 0 <= i < |cs| ==> cs[i].Upsert? && 0 < |cs[i].rows| <= BatchSize
  {
    var batches := Chunks(rows, BatchSize);
    seq(|batches|, i requires 0 <= i < |batches| => Upsert(batches[i]))
  }

  /** The rows of a sequence of upserts, in order. */
  function RowsOf(cs: seq<Call>): seq<Record>
    decreases |cs|
  {
    if cs == [] then [] else (if cs[0].Upsert? then cs[0].rows else []) + RowsOf(cs[1..])
  }

  lemma {:induction false} UpsertRows(batches: seq<seq<Record>>)
    ensures RowsOf(seq(|batches|, i requires 0 <= i < |batches| => Upsert(batches[i]))) == Flatten(batches)
    decreases |batches|
  {
    if batches != [] {
      var cs := seq(|batches|, i requires 0 <= i < |batches| => Upsert(batches[i]));
      UpsertRows(batches[1..]);
      assert cs[1..] == seq(|batches[1..]|, i requires 0 <= i < |batches[1..]| => Upsert(batches[1..][i]));
    }
  }

  /**
   * `storeDocs` as written: documents of system chaincodes are skipped,
   * every other added document becomes a record, a marshal failure returns
   * before any statement, and otherwise the upsert batches run followed by
   * a delete of an id list that is never filled. Statement errors are not
   * checked, so the result is success.
   */
  function StoreDocs(codec: JsonCodec, resp: Response, enum: Enumerator): (r: Run)
    requires ValidEnumerator(enum)
    ensures r.err.Some? ==> r.calls == [] && r.err.value.MarshalFailed?
    ensures r.err.None? ==> |r.calls| > 0 && r.calls[|r.calls| - 1] == DeleteIds([])
    ensures r.err.None? ==> forall i :: 0 <= i < |r.calls| - 1 ==> r.calls[i].Upsert?
    ensures r.err.Some? <==> exists k :: k in resp.toAdd && !IsSystemChaincode(resp.toAdd[k].chaincodeId) && codec.marshal(resp.toAdd[k].data).None?
  {
    assert Enumerates(enum(resp.toAdd), resp.toAdd);
    var kept := KeptKeys(enum(resp.toAdd), resp.toAdd);
    KeptMarshalFailure(codec, resp.toAdd, enum(resp.toAdd));
    match Records(codec, resp.toAdd, kept)
    case Failure(e) => Run([], Some(e))
    case Success(rows) => Run(Upserts(rows) + [DeleteIds([])], None)
  }

  /** Some kept key fails to marshal exactly when some document not from a system chaincode does. */
  lemma KeptMarshalFailure(codec: JsonCodec, m: map<string, Document>, order: seq<string>)
    requires Enumerates(order, m)
    ensures (exists k :: k in m && !IsSystemChaincode(m[k].chaincodeId) && codec.marshal(m[k].data).None?) ==>
      exists i :: 0 <= i < |KeptKeys(order, m)| && codec.marshal(m[KeptKeys(order, m)[i]].data).None?
    ensures (exists i :: 0 <= i < |KeptKeys(order, m)| && codec.marshal(m[KeptKeys(order, m)[i]].data).None?) ==>
      exists k :: k in m && !IsSystemChaincode(m[k].chaincodeId) && codec.marshal(m[k].data).None?
  {
    var kept := KeptKeys(order, m);
    if k :| k in m && !IsSystemChaincode(m[k].chaincodeId) && codec.marshal(m[k].data).None? {
      assert k in kept;
      var i :| 0 <= i < |kept| && kept[i] == k;
      assert codec.marshal(m[kept[i]].data).None?;
    }
  }

  /**
   * The upserted rows are exactly the records of the kept added documents:
   * one per key not from a system chaincode, with its primary key as id.
   */
  lemma UpsertedRows(codec: JsonCodec, resp: Response, enum: Enumerator)
    requires ValidEnumerator(enum)
    requires StoreDocs(codec, resp, enum).err.None?
    ensures var r := StoreDocs(codec, resp, enum);
      var rows := RowsOf(r.calls);
      && (forall k :: k in resp.toAdd && !IsSystemChaincode(resp.toAdd[k].chaincodeId) ==>
        exists i :: 0 <= i < |rows| && rows[i].id == resp.toAdd[k].primaryKey && rows[i].chaincode == resp.toAdd[k].chaincodeId)
      && (forall i :: 0 <= i < |rows| ==> !IsSystemChaincode(rows[i].chaincode))
  {
    UpsertedRecords(codec, resp, enum);
    forall k | k in resp.toAdd && !IsSystemChaincode(resp.toAdd[k].chaincodeId)
      ensures var rows := RowsOf(StoreDocs(codec, resp, enum).calls);
        exists i :: 0 <= i < |rows| && rows[i].id == resp.toAdd[k].primaryKey && rows[i].chaincode == resp.toAdd[k].chaincodeId
    {
      KeptKeyRecorded(codec, resp, enum, k);
    }
  }

  /** A kept added key has its record among the records of the kept keys. */
  lemma KeptKeyRecorded(codec: JsonCodec, resp: Response, enum: Enumerator, k: string)
    requires Enumerates(enum(resp.toAdd), resp.toAdd)
    requires Records(codec, resp.toAdd, KeptKeys(enum(resp.toAdd), resp.toAdd)).Success?
    requires k in resp.toAdd && !IsSystemChaincode(resp.toAdd[k].chaincodeId)
    ensures var recs := Records(codec, resp.toAdd, KeptKeys(enum(resp.toAdd), resp.toAdd)).value;
      exists i :: 0 <= i < |recs| && recs[i].id == resp.toAdd[k].primaryKey && recs[i].chaincode == resp.toAdd[k].chaincodeId
  {
    var kept := KeptKeys(enum(resp.toAdd), resp.toAdd);
    var recs := Records(codec, resp.toAdd, kept).value;
    var i :| 0 <= i < |kept| && kept[i] == k;
    assert recs[i].id == resp.toAdd[k].primaryKey;
  }

  /** The upserts carry the kept added documents' records, in the iteration order. */
  lemma UpsertedRecords(codec: JsonCodec, resp: Response, enum: Enumerator)
    requires ValidEnumerator(enum)
    requires StoreDocs(codec, resp, enum).err.None?
    ensures Enumerates(enum(resp.toAdd), resp.toAdd)
    ensures RowsOf(StoreDocs(codec, resp, enum).calls) ==
      Records(codec, resp.toAdd, KeptKeys(enum(resp.toAdd), resp.toAdd)).value
  {
    assert Enumerates(enum(resp.toAdd), resp.toAdd);
    var recs := Records(codec, resp.toAdd, KeptKeys(enum(resp.toAdd), resp.toAdd)).value;
    ChunksFlatten(recs, BatchSize);
    UpsertRows(Chunks(recs, BatchSize));
    RowsOfAppend(Upserts(recs), [DeleteIds([])]);
    assert RowsOf([DeleteIds([])]) == [];
  }

  lemma {:induction false} RowsOfAppend(a: seq<Call>, b: seq<Call>)
    ensures RowsOf(a + b) == RowsOf(a) + RowsOf(b)
    decreases |a|
  {
    if a == [] {
      assert a + b == b;
    } else {
      assert (a + b)[1..] == a[1..] + b;
      RowsOfAppend(a[1..], b);
    }
  }

  /**
   * The removals of a response never reach the table: two responses that
   * add the same documents make the same statements, whatever they remove.
   */
  lemma RemovalsIgnored(codec: JsonCodec, r1: Response, r2: Response, enum: Enumerator)
    requires ValidEnumerator(enum)
    requires r1.toAdd == r2.toAdd
    ensures StoreDocs(codec, r1, enum) == StoreDocs(codec, r2, enum)
  {
  }

  /**
   * `storeDocs` with the delete list filled: the primary keys of the
   * removed documents not from a system chaincode, as the add loop filters.
   */
  function StoreDocsCorrected(codec: JsonCodec, resp: Response, enum: Enumerator): (r: Run)
    requires ValidEnumerator(enum)
    ensures r.err == StoreDocs(codec, resp, enum).err
    ensures r.err.None? ==> forall k :: k in resp.toRemove && !IsSystemChaincode(resp.toRemove[k].chaincodeId) ==>
      resp.toRemove[k].primaryKey in DeleteList(r)
    ensures r.err.None? ==> forall id :: id in DeleteList(r) ==>
      exists k :: k in resp.toRemove && !IsSystemChaincode(resp.toRemove[k].chaincodeId) && resp.toRemove[k].primaryKey == id
  {
    var original := StoreDocs(codec, resp, enum);
    if original.err.Some? then original
    else
      assert Enumerates(enum(resp.toRemove), resp.toRemove);
      var ids := KeptPrimaryKeys(resp.toRemove, enum(resp.toRemove));
      DeleteListOf(original.calls[..|original.calls| - 1], ids);
      Run(original.calls[..|original.calls| - 1] + [DeleteIds(ids)], None)
  }

  lemma DeleteListOf(ups: seq<Call>, ids: seq<string>)
    ensures DeleteList(Run(ups + [DeleteIds(ids)], None)) == ids
  {
    assert (ups + [DeleteIds(ids)])[|ups|] == DeleteIds(ids);
  }

  /** Replacing a run's final delete leaves its rows as they were. */
  lemma ReplaceDeleteKeepsRows(calls: seq<Call>, ids: seq<string>)
    requires calls != [] && calls[|calls| - 1].DeleteIds?
    ensures RowsOf(calls[..|calls| - 1] + [DeleteIds(ids)]) == RowsOf(calls)
  {
    var ups := calls[..|calls| - 1];
    assert calls == ups + [calls[|calls| - 1]];
    RowsOfAppend(ups, [calls[|calls| - 1]]);
    RowsOfAppend(ups, [DeleteIds(ids)]);
    assert RowsOf([calls[|calls| - 1]]) == [] == RowsOf([DeleteIds(ids)]);
  }

  /** The correction changes only the final delete: the upserts and their rows are those of `storeDocs`. */
  lemma CorrectedKeepsUpserts(codec: JsonCodec, resp: Response, enum: Enumerator)
    requires ValidEnumerator(enum)
    requires StoreDocs(codec, resp, enum).err.None?
    ensures var r := StoreDocsCorrected(codec, resp, enum); var original := StoreDocs(codec, resp, enum);
      && |r.calls| == |original.calls| && r.calls[|r.calls| - 1].DeleteIds?
      && r.calls[..|r.calls| - 1] == original.calls[..|original.calls| - 1]
      && RowsOf(r.calls) == RowsOf(original.calls)
  {
    var original := StoreDocs(codec, resp, enum);
    var r := StoreDocsCorrected(codec, resp, enum);
    var ups := original.calls[..|original.calls| - 1];
    var last := r.calls[|r.calls| - 1];
    assert r.calls == ups + [last] && last.DeleteIds?;
    assert r.calls[..|r.calls| - 1] == ups;
    ReplaceDeleteKeepsRows(original.calls, last.ids);
  }

  /** A removal of an ordinary chaincode's document is sent by the corrected sink and not by the original. */
  lemma RemovalReachesTableOnlyWhenCorrected(codec: JsonCodec, resp: Response, enum: Enumerator, k: string)
    requires ValidEnumerator(enum)
    requires StoreDocs(codec, resp, enum).err.None?
    requires k in resp.toRemove && !IsSystemChaincode(resp.toRemove[k].chaincodeId)
    ensures resp.toRemove[k].primaryKey !in DeleteList(StoreDocs(codec, resp, enum))
    ensures resp.toRemove[k].primaryKey in DeleteList(StoreDocsCorrected(codec, resp, enum))
  {
  }

  /** `Store`/`StoreBulk` after the transformation: its error returns before any statement. */
  function StoreResult(codec: JsonCodec, res: Result<Response, BlockError>, enum: Enumerator): (r: Run)
    requires ValidEnumerator(enum)
    ensures res.Failure? ==> r == Run([], Some(TransformFailed(res.error)))
    ensures res.Success? ==> r == StoreDocs(codec, res.value, enum)
  {
    match res
    case Failure(e) => Run([], Some(TransformFailed(e)))
    case Success(resp) => StoreDocs(codec, resp, enum)
  }

  function Store(codec: JsonCodec, b: Block, enum: Enumerator): (r: Run)
    requires ValidEnumerator(enum)
    ensures BlockToDocuments(codec, b).Failure? ==> r.calls == [] && r.err.Some? && r.err.value.TransformFailed?
  {
    StoreResult(codec, BlockToDocuments(codec, b), enum)
  }

  function StoreBulk(codec: JsonCodec, bs: seq<Block>, enum: Enumerator): (r: Run)
    requires ValidEnumerator(enum)
    ensures BlocksToDocuments(codec, bs).Failure? ==> r.calls == [] && r.err.Some? && r.err.value.TransformFailed?
    ensures bs == [] ==> r == Run([DeleteIds([])], None)
  {
    StoreResult(codec, BlocksToDocuments(codec, bs), enum)
  }

  /** On a single block, `StoreBulk` makes the same statements as `Store`. */
  lemma StoreBulkOfOneBlock(codec: JsonCodec, b: Block, enum: Enumerator)
    requires ValidEnumerator(enum)
    ensures StoreBulk(codec, [b], enum) == Store(codec, b, enum)
  {
    SingleBlockBatch(codec, b);
  }
}

=== FILE: sync.dfy ===
/**
 * The sync command's cursor logic (cmd/sync.go): where a run starts, the
 * catch-up branch that only logs, and the tailing loop that fetches every
 * block from the cursor up to the channel height, hands them to the store
 * and records the height as the checkpoint.
 *
 * The checkpoint store, the ledger client and the sink are not modelled;
 * their outcomes are the inputs of each step.
 */
module Sync {
  import opened Wrappers
  import opened Decimal
  import opened Peers

  /** A distance to the channel height above this logs the catch-up message. */
  const MaxBlockDistance: int := 1
  /** Default of `--batch-index`; only the disabled catch-up loop reads it. */
  const BatchBlockIndexing: int := 2000
  /** Default of `--block-number`: no override. */
  const NoOverride: int := -1

  const TwoTo64: int := 0x1_0000_0000_0000_0000

  /** Go's 64-bit `int` arithmetic: the value taken modulo 2^64 into the signed range. */
  function WrapInt64(n: int): (r: int)
    ensures MinInt64 <= r <= MaxInt64
    ensures (r - n) % TwoTo64 == 0
  {
    (n - MinInt64) % TwoTo64 + MinInt64
  }

  /** Values inside the 64-bit range are left alone. */
  lemma WrapInt64InRange(n: int)
    ensures MinInt64 <= n <= MaxInt64 ==> WrapInt64(n) == n
  {
    if MinInt64 <= n <= MaxInt64 {
      assert 0 <= n - MinInt64 < TwoTo64;
    }
  }

  // ---------------------------------------------------------------------
  // Start block
  // ---------------------------------------------------------------------

  /**
   * The first block to fetch. `stored` is the checkpoint text, `None` when
   * the key is missing or unreadable. A checkpoint that parses as `n`
   * resumes at `n + 1` (Go `int`, so it wraps at the top of the range);
   * anything else starts at 0. A `--block-number` of 0 or more overrides both.
   */
  function StartBlock(stored: Option<string>, flag: int): (b: int)
    ensures flag >= 0 ==> b == flag
    ensures flag < 0 && (stored.None? || Atoi(stored.value).None?) ==> b == 0
    ensures flag < 0 && stored.Some? && Atoi(stored.value).Some? && Atoi(stored.value).value < MaxInt64 ==>
      b == Atoi(stored.value).value + 1
    ensures flag < 0 && stored.Some? && Atoi(stored.value) == Some(MaxInt64) ==> b == MinInt64
  {
    if flag >= 0 then flag
    else
      match stored
      case None => 0
      case Some(text) =>
        match Atoi(text)
        case None => 0
        case Some(n) =>
          WrapInt64InRange(n + 1);
          WrapInt64(n + 1)
  }

  /** A checkpoint of block `h` written by `Itoa` resumes the next run at `h + 1`. */
  lemma RestartResumesAfter(h: nat)
    requires h < MaxInt64
    ensures StartBlock(Some(Itoa(h)), NoOverride) == h + 1
  {
    AtoiItoa(h);
  }

  /** A checkpoint that is not a decimal number starts from the first block. */
  lemma GarbledCheckpointStartsAtZero(text: string, i: nat)
    requires 0 < i < |text| && !IsDigit(text[i])
    ensures StartBlock(Some(text), NoOverride) == 0
  {
    AtoiRejectsNonNumeric(text, i);
  }

  // ---------------------------------------------------------------------
  // Startup
  // ---------------------------------------------------------------------

  /** The cursor (next block to fetch) and the checkpoint text as stored. */
  datatype SyncState = SyncState(cursor: int, checkpoint: Option<string>)

  /** What the loop runs with: targets fixed at startup, and whether catch-up was logged. */
  datatype Session = Session(targets: seq<Peer>, state: SyncState, catchUpLogged: bool)

  /** Whether the catch-up branch runs: the distance `height - start`, a Go `int` subtraction, exceeds the threshold. */
  predicate CatchUpDue(height: int, start: int) {
    WrapInt64(height - start) > MaxBlockDistance
  }

  /**
   * Startup after the sink is open: the start block, then the target peers
   * and the channel height from discovery (`None`: a query failed, and the
   * command returns the error). The catch-up branch only logs the distance,
   * which is a Go `int` subtraction and so wraps.
   */
  function Startup(stored: Option<string>, flag: int, discovered: Option<seq<Peer>>): (r: Option<Session>)
    ensures r.None? <==> discovered.None?
    ensures r.Some? ==> r.value.targets == TargetPeers(discovered).value
    ensures r.Some? ==> r.value.state == SyncState(StartBlock(stored, flag), stored)
    ensures r.Some? ==> (r.value.catchUpLogged <==> CatchUpDue(ChannelHeight(discovered.value), StartBlock(stored, flag)))
  {
    match discovered
    case None => None
    case Some(peers) =>
      var start := StartBlock(stored, flag);
      Some(Session(TargetPeers(discovered).value, SyncState(start, stored), CatchUpDue(ChannelHeight(peers), start)))
  }

  /**
   * The catch-up branch is inert: however far behind the run starts, the
   * state the loop begins with is the same.
   */
  lemma CatchUpIsInert(stored: Option<string>, flag: int, near: seq<Peer>, far: seq<Peer>)
    requires CatchUpDue(ChannelHeight(far), StartBlock(stored, flag))
    ensures Startup(stored, flag, Some(far)).value.catchUpLogged
    ensures Startup(stored, flag, Some(near)).value.state == Startup(stored, flag, Some(far)).value.state
  {
    var start := StartBlock(stored, flag);
    assert Startup(stored, flag, Some(near)).value.state == SyncState(start, stored);
    assert Startup(stored, flag, Some(far)).value.state == SyncState(start, stored);
  }

  /**
   * The distance wraps: a checkpoint of the largest int64 (as `Itoa` writes
   * it, by `AtoiItoa`) resumes at the smallest one, `height - start`
   * overflows to a negative number, and the catch-up message is not logged
   * however far ahead the channel is.
   */
  lemma CatchUpDistanceWraps(text: string, peers: seq<Peer>)
    requires Atoi(text) == Some(MaxInt64) && ChannelHeight(peers) <= MaxInt64
    ensures StartBlock(Some(text), NoOverride) == MinInt64
    ensures !Startup(Some(text), NoOverride, Some(peers)).value.catchUpLogged
  {
    var h := ChannelHeight(peers);
    assert StartBlock(Some(text), NoOverride) == MinInt64;
    WrapAboveRange(h - MinInt64);
    assert !CatchUpDue(h, MinInt64);
  }

  /** A value past the top of the 64-bit range wraps to itself minus 2^64. */
  lemma WrapAboveRange(n: int)
    requires MaxInt64 < n < MaxInt64 + TwoTo64
    ensures WrapInt64(n) == n - TwoTo64
  {
    var k := n - MinInt64;
    assert TwoTo64 <= k < 2 * TwoTo64;
    assert k % TwoTo64 == k - TwoTo64;
  }

  // ---------------------------------------------------------------------
  // The tailing step
  // ---------------------------------------------------------------------

  /** The block numbers `lo..hi`, inclusive and ascending; empty when `hi < lo`. */
  function BlockRange(lo: int, hi: int): (r: seq<int>)
    ensures |r| == if hi < lo then 0 else hi - lo + 1
    ensures forall i :: 0 <= i < |r| ==> r[i] == lo + i
    decreases hi - lo
  {
    if hi < lo then [] else [lo] + BlockRange(lo + 1, hi)
  }

  /**
   * One iteration's view of the world: the peers discovery returns
   * (`None`: the query failed), whether every block query succeeded,
   * whether `StoreBulk` succeeded, and whether the checkpoint write did.
   */
  datatype Observation = Observation(peers: Option<seq<Peer>>, fetchOk: bool, storeOk: bool, saveOk: bool)

  /**
   * The blocks queried and the peers the queries went to, the blocks handed
   * to a successful store, and the state after.
   */
  datatype Outcome = Outcome(requested: seq<int>, queried: seq<Peer>, stored: seq<int>, state: SyncState, halted: bool)

  /**
   * One iteration of the tailing loop, querying blocks from the `targets`
   * chosen at startup, not from the peers discovery lists now. A failed
   * height query, block query or store ends the process (`log.Fatalf`) with
   * nothing changed; below the cursor no block is queried, so only the
   * store can fail. At the cursor's height nothing happens. Otherwise the blocks from the cursor
   * to the height are stored, the cursor becomes the height and, when the
   * write succeeds, so does the checkpoint; a failed write is only logged.
   */
  function Step(s: SyncState, targets: seq<Peer>, o: Observation): (r: Outcome)
    ensures o.peers.None? ==> r.halted && r.state == s && r.requested == [] && r.stored == []
    ensures o.peers.Some? && ChannelHeight(o.peers.value) == s.cursor ==>
      !r.halted && r.state == s && r.requested == [] && r.stored == []
    ensures o.peers.Some? && ChannelHeight(o.peers.value) != s.cursor ==>
      var h := ChannelHeight(o.peers.value);
      && r.requested == BlockRange(s.cursor, h)
      && ((o.fetchOk || h < s.cursor) && o.storeOk ==>
        && !r.halted && r.stored == r.requested && r.state.cursor == h
        && r.state.checkpoint == (if o.saveOk then Some(Itoa(h)) else s.checkpoint))
      && (!((o.fetchOk || h < s.cursor) && o.storeOk) ==> r.halted && r.state == s && r.stored == [])
    ensures r.queried == if r.requested == [] then [] else targets
    ensures r.state.checkpoint != s.checkpoint ==>
      r.stored == r.requested && r.state.checkpoint == Some(Itoa(r.state.cursor))
  {
    match o.peers
    case None => Outcome([], [], [], s, true)
    case Some(peers) =>
      var h := ChannelHeight(peers);
      if h == s.cursor then Outcome([], [], [], s, false)
      else
        var blocks := BlockRange(s.cursor, h);
        var asked := if blocks == [] then [] else targets;
        if (blocks != [] && !o.fetchOk) || !o.storeOk then Outcome(blocks, asked, [], s, true)
        else Outcome(blocks, asked, blocks, SyncState(h, if o.saveOk then Some(Itoa(h)) else s.checkpoint), false)
  }

  /** After a store up to height `h`, the next fetch starts again at `h`, a block already stored. */
  lemma NextFetchRepeatsLastBlock(s: SyncState, targets: seq<Peer>, o1: Observation, o2: Observation)
    requires o1.peers.Some? && o2.peers.Some?
    requires ChannelHeight(o1.peers.value) != s.cursor && o1.fetchOk && o1.storeOk
    requires ChannelHeight(o2.peers.value) > ChannelHeight(o1.peers.value)
    ensures var first := Step(s, targets, o1);
      var second := Step(first.state, targets, o2);
      |first.stored| > 0 ==> second.requested[0] == first.stored[|first.stored| - 1]
  {
  }

  /** A height below the cursor fetches nothing yet moves the cursor down to it. */
  lemma HeightBelowCursor(s: SyncState, targets: seq<Peer>, o: Observation)
    requires o.peers.Some? && ChannelHeight(o.peers.value) < s.cursor && o.storeOk
    ensures Step(s, targets, o).requested == [] && Step(s, targets, o).state.cursor == ChannelHeight(o.peers.value)
  {
  }

  /**
   * The loop reuses the startup targets: every block query of a step goes
   * to the peers chosen at startup, whatever discovery lists in that step.
   */
  lemma QueriesGoToStartupTargets(stored: Option<string>, flag: int, startPeers: seq<Peer>, o: Observation)
    ensures var session := Startup(stored, flag, Some(startPeers)).value;
      var r := Step(session.state, session.targets, o);
      r.requested != [] ==> r.queried == TargetPeers(Some(startPeers)).value
  {
  }

  // ---------------------------------------------------------------------
  // The loop
  // ---------------------------------------------------------------------

  /**
   * The loop so far: its state, every block a store accepted, the last
   * height whose checkpoint write succeeded, and whether the process ended.
   */
  datatype Trace = Trace(state: SyncState, stored: set<int>, saved: Option<int>, halted: bool)

  function Advance(t: Trace, targets: seq<Peer>, o: Observation): (t': Trace)
    requires !t.halted
  {
    var r := Step(t.state, targets, o);
    var saved := if r.state.checkpoint != t.state.checkpoint then Some(r.state.cursor) else t.saved;
    Trace(r.state, t.stored + (set b | b in r.stored), saved, r.halted)
  }

  /** The loop over a sequence of observations, up to the first fatal step. */
  function Run(t: Trace, targets: seq<Peer>, obs: seq<Observation>): (t': Trace)
    decreases |obs|
  {
    if obs == [] || t.halted then t else Run(Advance(t, targets, obs[0]), targets, obs[1..])
  }

  /** Every block from `lo` to `hi` is among `stored`. */
  predicate Covered(lo: int, hi: int, stored: set<int>) {
    forall b :: lo <= b <= hi ==> b in stored
  }

  /**
   * What the loop keeps, for a run that started at `c0` with checkpoint
   * `cp0`: the cursor is the start or every block from the start up to it
   * is stored, and the checkpoint is the one found at startup or the text
   * of a saved height up to which every block is stored.
   */
  predicate Safe(c0: int, cp0: Option<string>, t: Trace) {
    && (t.state.cursor == c0 || Covered(c0, t.state.cursor, t.stored))
    && (t.saved.None? ==> t.state.checkpoint == cp0)
    && (t.saved.Some? ==> t.state.checkpoint == Some(Itoa(t.saved.value)) && Covered(c0, t.saved.value, t.stored))
  }

  lemma AdvanceIsSafe(c0: int, cp0: Option<string>, t: Trace, targets: seq<Peer>, o: Observation)
    requires !t.halted && Safe(c0, cp0, t)
    ensures Safe(c0, cp0, Advance(t, targets, o))
  {
    var r := Step(t.state, targets, o);
    var t' := Advance(t, targets, o);
    if r.stored != [] {
      var lo, hi := t.state.cursor, r.state.cursor;
      assert r.stored == BlockRange(lo, hi);
      forall b | lo <= b <= hi
        ensures b in t'.stored
      {
        assert r.stored[b - lo] == b;
      }
      assert Covered(c0, hi, t'.stored);
    } else if r.state != t.state {
      // a store of no blocks: the height fell below the cursor
      assert r.state.cursor < t.state.cursor;
    }
  }

  lemma {:induction false} RunIsSafe(c0: int, cp0: Option<string>, t: Trace, targets: seq<Peer>, obs: seq<Observation>)
    requires Safe(c0, cp0, t)
    ensures Safe(c0, cp0, Run(t, targets, obs))
    decreases |obs|
  {
    if obs != [] && !t.halted {
      AdvanceIsSafe(c0, cp0, t, targets, obs[0]);
      RunIsSafe(c0, cp0, Advance(t, targets, obs[0]), targets, obs[1..]);
    }
  }

  /**
   * The checkpoint is written only after the store confirmed every block up
   * to it: after any run, a restart resumes right after the saved height
   * and every block it skips from this run's start on was stored.
   */
  lemma RestartSkipsOnlyStoredBlocks(c0: int, cp0: Option<string>, targets: seq<Peer>, obs: seq<Observation>)
    ensures var t := Run(Trace(SyncState(c0, cp0), {}, None, false), targets, obs);
      && (t.saved.None? ==> t.state.checkpoint == cp0)
      && (t.saved.Some? ==> Covered(c0, t.saved.value, t.stored))
      && (t.saved.Some? && 0 <= t.saved.value < MaxInt64 ==> StartBlock(t.state.checkpoint, NoOverride) == t.saved.value + 1)
  {
    var t0 := Trace(SyncState(c0, cp0), {}, None, false);
    RunIsSafe(c0, cp0, t0, targets, obs);
    var t := Run(t0, targets, obs);
    if t.saved.Some? && 0 <= t.saved.value < MaxInt64 {
      RestartResumesAfter(t.saved.value);
    }
  }
}

=== FILE: wrappers.dfy ===
/** Failure-compatible wrappers shared by every module of the model. */
module Wrappers {

  datatype Option<+T> = None | Some(value: T) {
    predicate IsFailure() { None? }

    function PropagateFailure<U>(): Option<U>
      requires None?
    {
      None
    }

    function Extract(): T
      requires Some?
    {
      value
    }
  }

  datatype Result<+R, +E> = Success(value: R) | Failure(error: E) {
    predicate IsFailure() { Failure? }

    function PropagateFailure<U>(): Result<U, E>
      requires Failure?
    {
      Failure(error)
    }

    function Extract(): R
      requires Success?
    {
      value
    }
  }
}

=== FILE: write_order.dfy ===
/**
 * A reference reading of `BlockToDocuments`: first list the block's writes
 * as documents in transaction, namespace and write order, then place them
 * one after another. The lemmas show that the source's interleaved loops
 * compute exactly this, and what placing a sequence of documents leaves for
 * each key: the last write to that key decides.
 */
module WriteOrder {
  import opened Wrappers
  import opened Json
  import opened Documents
  import opened Blocks

  // ---------------------------------------------------------------------
  // The block's writes, in order
  // ---------------------------------------------------------------------

  /**
   * The documents `build` gives for the writes `ws`, in write order, each
   * with its write's delete flag, or the nil-map panic at the first write it
   * gives none for.
   */
  function Collect(build: KvWrite -> Option<Document>, ws: seq<KvWrite>): Result<seq<Placement>, BlockError>
    decreases |ws|
  {
    if ws == [] then Success([])
    else
      match build(ws[0])
      case None => Failure(NilDataPanic)
      case Some(d) =>
        var rest :- Collect(build, ws[1..]);
        Success([Placement(d, ws[0].isDelete)] + rest)
  }

  lemma {:induction false} CollectLength(build: KvWrite -> Option<Document>, ws: seq<KvWrite>)
    ensures Collect(build, ws).Success? ==> |Collect(build, ws).value| == |ws|
    decreases |ws|
  {
    if ws != [] {
      CollectLength(build, ws[1..]);
    }
  }

  lemma {:induction false} CollectAt(build: KvWrite -> Option<Document>, ws: seq<KvWrite>, i: nat)
    requires i < |ws| && Collect(build, ws).Success?
    ensures i < |Collect(build, ws).value|
    ensures build(ws[i]) == Some(Collect(build, ws).value[i].doc)
    ensures Collect(build, ws).value[i].isDelete == ws[i].isDelete
    decreases i
  {
    CollectLength(build, ws);
    if i > 0 {
      CollectAt(build, ws[1..], i - 1);
      assert ws[i] == ws[1..][i - 1];
    }
  }

  /** The documents of one namespace's writes, in write order, or the nil-map panic. */
  function WriteDocs(codec: JsonCodec, meta: TxMeta, ns: string, ws: seq<KvWrite>): Result<seq<Placement>, BlockError> {
    Collect(w => BuildDocument(codec, meta, ns, w), ws)
  }

  /** One document per write, the `i`-th built from the `i`-th write and carrying its delete flag. */
  lemma WriteDocsAt(codec: JsonCodec, meta: TxMeta, ns: string, ws: seq<KvWrite>, i: nat)
    requires i < |ws| && WriteDocs(codec, meta, ns, ws).Success?
    ensures |WriteDocs(codec, meta, ns, ws).value| == |ws|
    ensures var p := WriteDocs(codec, meta, ns, ws).value[i];
      BuildDocument(codec, meta, ns, ws[i]) == Some(p.doc) && p.isDelete == ws[i].isDelete
  {
    var build := w => BuildDocument(codec, meta, ns, w);
    CollectLength(build, ws);
    CollectAt(build, ws, i);
  }

  function NamespaceDocs(codec: JsonCodec, meta: TxMeta, sets: seq<NsRwSet>): Result<seq<Placement>, BlockError>
    decreases |sets|
  {
    if sets == [] then Success([])
    else
      var first :- WriteDocs(codec, meta, sets[0].namespace, sets[0].writes);
      var rest :- NamespaceDocs(codec, meta, sets[1..]);
      Success(first + rest)
  }

  function EntryDocs(codec: JsonCodec, number: nat, e: Entry): Result<seq<Placement>, BlockError> {
    match e
    case Undecodable(stage) => Failure(DecodeError(stage))
    case Tx(h, body) =>
      if h.headerType != EndorserTransaction then Success([])
      else
        match body
        case ActionError => Success([])
        case RwSetError => Failure(RwSetDecodeError)
        case RwSet(sets) => NamespaceDocs(codec, Meta(h, number), sets)
  }

  /** All documents of the block's entries in order, or the first failure. */
  function BlockDocs(codec: JsonCodec, number: nat, es: seq<Entry>): Result<seq<Placement>, BlockError>
    decreases |es|
  {
    if es == [] then Success([])
    else
      var first :- EntryDocs(codec, number, es[0]);
      var rest :- BlockDocs(codec, number, es[1..]);
      Success(first + rest)
  }

  /** Placing documents one after another, from the first to the last. */
  function PlaceAll(r: Response, ps: seq<Placement>): Response
    decreases |ps|
  {
    if ps == [] then r else Place(PlaceAll(r, ps[..|ps| - 1]), ps[|ps| - 1])
  }

  function Placed(r: Response, res: Result<seq<Placement>, BlockError>): Result<Response, BlockError> {
    match res
    case Success(ps) => Success(PlaceAll(r, ps))
    case Failure(e) => Failure(e)
  }

  lemma {:induction false} PlaceAllAppend(r: Response, a: seq<Placement>, b: seq<Placement>)
    ensures PlaceAll(r, a + b) == PlaceAll(PlaceAll(r, a), b)
    decreases |b|
  {
    if b == [] {
      assert a + b == a;
    } else {
      assert (a + b)[..|a + b| - 1] == a + b[..|b| - 1];
      PlaceAllAppend(r, a, b[..|b| - 1]);
    }
  }

  lemma PlaceAllCons(r: Response, p: Placement, ps: seq<Placement>)
    ensures PlaceAll(r, [p] + ps) == PlaceAll(Place(r, p), ps)
  {
    PlaceAllAppend(r, [p], ps);
    assert [p][..0] == [];
  }

  // ---------------------------------------------------------------------
  // The source's loops compute the reference
  // ---------------------------------------------------------------------

  lemma {:induction false} PlaceWritesIsFold(r: Response, codec: JsonCodec, meta: TxMeta, ns: string, ws: seq<KvWrite>)
    ensures PlaceWrites(r, codec, meta, ns, ws) == Placed(r, WriteDocs(codec, meta, ns, ws))
    decreases |ws|
  {
    if ws != [] {
      match BuildDocument(codec, meta, ns, ws[0])
      case None =>
      case Some(d) =>
        var p := Placement(d, ws[0].isDelete);
        PlaceWritesIsFold(Place(r, p), codec, meta, ns, ws[1..]);
        if WriteDocs(codec, meta, ns, ws[1..]).Success? {
          PlaceAllCons(r, p, WriteDocs(codec, meta, ns, ws[1..]).value);
        }
    }
  }

  lemma {:induction false} PlaceNamespacesIsFold(r: Response, codec: JsonCodec, meta: TxMeta, sets: seq<NsRwSet>)
    ensures PlaceNamespaces(r, codec, meta, sets) == Placed(r, NamespaceDocs(codec, meta, sets))
    decreases |sets|
  {
    if sets != [] {
      PlaceWritesIsFold(r, codec, meta, sets[0].namespace, sets[0].writes);
      var first := WriteDocs(codec, meta, sets[0].namespace, sets[0].writes);
      if first.Success? {
        var r1 := PlaceAll(r, first.value);
        PlaceNamespacesIsFold(r1, codec, meta, sets[1..]);
        var rest := NamespaceDocs(codec, meta, sets[1..]);
        if rest.Success? {
          PlaceAllAppend(r, first.value, rest.value);
        }
      }
    }
  }

  lemma PlaceEntryIsFold(r: Response, codec: JsonCodec, number: nat, e: Entry)
    ensures PlaceEntry(r, codec, number, e) == Placed(r, EntryDocs(codec, number, e))
  {
    if e.Tx? && e.header.headerType == EndorserTransaction && e.body.RwSet? {
      PlaceNamespacesIsFold(r, codec, Meta(e.header, number), e.body.nsRwSets);
    }
  }

  lemma {:induction false} PlaceEntriesIsFold(r: Response, codec: JsonCodec, number: nat, es: seq<Entry>)
    ensures PlaceEntries(r, codec, number, es) == Placed(r, BlockDocs(codec, number, es))
    decreases |es|
  {
    if es != [] {
      PlaceEntryIsFold(r, codec, number, es[0]);
      var first := EntryDocs(codec, number, es[0]);
      if first.Success? {
        var r1 := PlaceAll(r, first.value);
        PlaceEntriesIsFold(r1, codec, number, es[1..]);
        var rest := BlockDocs(codec, number, es[1..]);
        if rest.Success? {
          PlaceAllAppend(r, first.value, rest.value);
        }
      }
    }
  }

  /** `BlockToDocuments` places the block's writes in order, or fails as the reference does. */
  lemma BlockToDocumentsIsFold(codec: JsonCodec, b: Block)
    ensures BlockToDocuments(codec, b) == Placed(EmptyResponse, BlockDocs(codec, b.number, b.entries))
  {
    PlaceEntriesIsFold(EmptyResponse, codec, b.number, b.entries);
  }

  // ---------------------------------------------------------------------
  // Last write wins
  // ---------------------------------------------------------------------

  /** The position of the last document for key `k`, or -1. */
  function LastIndex(ps: seq<Placement>, k: string): (i: int)
    ensures -1 <= i < |ps|
    ensures i >= 0 ==> KeyOf(ps[i]) == k
    ensures forall j :: i < j < |ps| ==> KeyOf(ps[j]) != k
    decreases |ps|
  {
    if ps == [] then -1
    else if KeyOf(ps[|ps| - 1]) == k then |ps| - 1
    else LastIndex(ps[..|ps| - 1], k)
  }

  /**
   * After placing a sequence of documents, a key written in it sits only in
   * the map its last write chose, holding that write's document; a key not
   * written keeps what it had.
   */
  lemma {:induction false} LastWriteWins(r: Response, ps: seq<Placement>, k: string)
    ensures var out := PlaceAll(r, ps); var i := LastIndex(ps, k);
      && (i < 0 ==> (k in out.toAdd <==> k in r.toAdd) && (k in out.toRemove <==> k in r.toRemove)
                    && (k in out.toAdd ==> out.toAdd[k] == r.toAdd[k])
                    && (k in out.toRemove ==> out.toRemove[k] == r.toRemove[k]))
      && (i >= 0 && ps[i].isDelete ==> k in out.toRemove && out.toRemove[k] == ps[i].doc && k !in out.toAdd)
      && (i >= 0 && !ps[i].isDelete ==> k in out.toAdd && out.toAdd[k] == ps[i].doc && k !in out.toRemove)
    decreases |ps|
  {
    if ps != [] {
      var init := ps[..|ps| - 1];
      LastWriteWins(r, init, k);
      if KeyOf(ps[|ps| - 1]) != k {
        assert LastIndex(ps, k) == LastIndex(init, k);
        if LastIndex(init, k) >= 0 {
          assert ps[LastIndex(init, k)] == init[LastIndex(init, k)];
        }
      }
    }
  }

  /**
   * Within one block, a key the block writes ends in exactly one map, the one
   * chosen by the key's last write in transaction, namespace and write order,
   * with that write's document; a key it never writes is in neither.
   */
  lemma BlockLastWriteWins(codec: JsonCodec, b: Block, k: string)
    requires BlockToDocuments(codec, b).Success?
    ensures BlockDocs(codec, b.number, b.entries).Success?
    ensures var out := BlockToDocuments(codec, b).value;
      var ps := BlockDocs(codec, b.number, b.entries).value;
      var i := LastIndex(ps, k);
      && (i < 0 ==> k !in out.toAdd && k !in out.toRemove)
      && (i >= 0 && ps[i].isDelete ==> k in out.toRemove && out.toRemove[k] == ps[i].doc && k !in out.toAdd)
      && (i >= 0 && !ps[i].isDelete ==> k in out.toAdd && out.toAdd[k] == ps[i].doc && k !in out.toRemove)
  {
    BlockToDocumentsIsFold(codec, b);
    LastWriteWins(EmptyResponse, BlockDocs(codec, b.number, b.entries).value, k);
  }

  // ---------------------------------------------------------------------
  // Header types and error handling
  // ---------------------------------------------------------------------

  lemma {:induction false} BlockDocsAppend(codec: JsonCodec, number: nat, a: seq<Entry>, b: seq<Entry>)
    ensures BlockDocs(codec, number, a + b) ==
      match BlockDocs(codec, number, a)
      case Failure(e) => Failure(e)
      case Success(p) =>
        match BlockDocs(codec, number, b)
        case Failure(e) => Failure(e)
        case Success(q) => Success(p + q)
    decreases |a|
  {
    if a == [] {
      assert a + b == b;
      if BlockDocs(codec, number, b).Success? {
        assert [] + BlockDocs(codec, number, b).value == BlockDocs(codec, number, b).value;
      }
    } else {
      assert (a + b)[0] == a[0] && (a + b)[1..] == a[1..] + b;
      BlockDocsAppend(codec, number, a[1..], b);
      var first := EntryDocs(codec, number, a[0]);
      if first.Success? && BlockDocs(codec, number, a[1..]).Success? && BlockDocs(codec, number, b).Success? {
        assert first.value + (BlockDocs(codec, number, a[1..]).value + BlockDocs(codec, number, b).value)
            == (first.value + BlockDocs(codec, number, a[1..]).value) + BlockDocs(codec, number, b).value;
      }
    }
  }

  /** An entry that contributes no documents: another header type, or a failed action extraction. */
  predicate Inert(e: Entry) {
    e.Tx? && (e.header.headerType != EndorserTransaction || e.body.ActionError?)
  }

  /** An entry that aborts the block: a decode failure or an undecodable read/write set. */
  predicate Fatal(e: Entry) {
    e.Undecodable? || (e.Tx? && e.header.headerType == EndorserTransaction && e.body.RwSetError?)
  }

  /** Dropping an inert entry from a block changes nothing, whatever else the block holds. */
  lemma InertEntryIgnored(codec: JsonCodec, b: Block, i: nat)
    requires i < |b.entries| && Inert(b.entries[i])
    ensures BlockToDocuments(codec, b) == BlockToDocuments(codec, Block(b.number, b.entries[..i] + b.entries[i + 1..]))
  {
    var pre, e, post := b.entries[..i], b.entries[i], b.entries[i + 1..];
    assert b.entries == pre + ([e] + post);
    BlockDocsAppend(codec, b.number, pre, [e] + post);
    assert ([e] + post)[1..] == post;
    assert EntryDocs(codec, b.number, e) == Success([]);
    if BlockDocs(codec, b.number, post).Success? {
      assert [] + BlockDocs(codec, b.number, post).value == BlockDocs(codec, b.number, post).value;
    }
    assert BlockDocs(codec, b.number, [e] + post) == BlockDocs(codec, b.number, post);
    BlockDocsAppend(codec, b.number, pre, post);
    BlockToDocumentsIsFold(codec, b);
    BlockToDocumentsIsFold(codec, Block(b.number, pre + post));
  }

  /** A block holding a fatal entry yields no response at all. */
  lemma FatalEntryAborts(codec: JsonCodec, b: Block, i: nat)
    requires i < |b.entries| && Fatal(b.entries[i])
    ensures BlockToDocuments(codec, b).Failure?
  {
    var pre, e, post := b.entries[..i], b.entries[i], b.entries[i + 1..];
    assert b.entries == pre + ([e] + post);
    BlockDocsAppend(codec, b.number, pre, [e] + post);
    assert EntryDocs(codec, b.number, e).Failure?;
    BlockToDocumentsIsFold(codec, b);
  }

  // ---------------------------------------------------------------------
  // Provenance
  // ---------------------------------------------------------------------

  /** `p` is the document of a write of the endorser transaction `e` of block `number`. */
  ghost predicate ProducedBy(p: Placement, codec: JsonCodec, number: nat, e: Entry) {
    && e.Tx? && e.header.headerType == EndorserTransaction && e.body.RwSet?
    && exists ns :: ns in e.body.nsRwSets && WrittenIn(p, codec, Meta(e.header, number), ns)
  }

  ghost predicate WrittenIn(p: Placement, codec: JsonCodec, meta: TxMeta, ns: NsRwSet) {
    exists w :: w in ns.writes && w.isDelete == p.isDelete && BuildDocument(codec, meta, ns.namespace, w) == Some(p.doc)
  }

  lemma WriteDocsProvenance(codec: JsonCodec, meta: TxMeta, rw: NsRwSet, p: Placement)
    requires WriteDocs(codec, meta, rw.namespace, rw.writes).Success?
    requires p in WriteDocs(codec, meta, rw.namespace, rw.writes).value
    ensures WrittenIn(p, codec, meta, rw)
  {
    var ps := WriteDocs(codec, meta, rw.namespace, rw.writes).value;
    CollectLength(w => BuildDocument(codec, meta, rw.namespace, w), rw.writes);
    var j :| 0 <= j < |ps| && ps[j] == p;
    WriteDocsAt(codec, meta, rw.namespace, rw.writes, j);
    var w := rw.writes[j];
    assert w in rw.writes && w.isDelete == p.isDelete && BuildDocument(codec, meta, rw.namespace, w) == Some(p.doc);
  }

  lemma {:induction false} NamespaceDocsProvenance(codec: JsonCodec, meta: TxMeta, sets: seq<NsRwSet>)
    requires NamespaceDocs(codec, meta, sets).Success?
    ensures forall p :: p in NamespaceDocs(codec, meta, sets).value ==>
      exists ns :: ns in sets && WrittenIn(p, codec, meta, ns)
    decreases |sets|
  {
    if sets != [] {
      var first := WriteDocs(codec, meta, sets[0].namespace, sets[0].writes).value;
      NamespaceDocsProvenance(codec, meta, sets[1..]);
      forall p | p in first
        ensures WrittenIn(p, codec, meta, sets[0])
      {
        WriteDocsProvenance(codec, meta, sets[0], p);
      }
      forall p | p in NamespaceDocs(codec, meta, sets[1..]).value
        ensures exists ns :: ns in sets && WrittenIn(p, codec, meta, ns)
      {
        var ns :| ns in sets[1..] && WrittenIn(p, codec, meta, ns);
        assert ns in sets;
      }
    }
  }

  lemma {:induction false} BlockDocsProvenance(codec: JsonCodec, number: nat, es: seq<Entry>)
    requires BlockDocs(codec, number, es).Success?
    ensures forall p :: p in BlockDocs(codec, number, es).value ==>
      exists i :: 0 <= i < |es| && ProducedBy(p, codec, number, es[i])
    decreases |es|
  {
    if es != [] {
      var e := es[0];
      var first := EntryDocs(codec, number, e).value;
      BlockDocsProvenance(codec, number, es[1..]);
      if e.Tx? && e.header.headerType == EndorserTransaction && e.body.RwSet? {
        NamespaceDocsProvenance(codec, Meta(e.header, number), e.body.nsRwSets);
      }
      forall p | p in first
        ensures ProducedBy(p, codec, number, es[0])
      {
      }
      forall p | p in BlockDocs(codec, number, es[1..]).value
        ensures exists i :: 0 <= i < |es| && ProducedBy(p, codec, number, es[i])
      {
        var i :| 0 <= i < |es[1..]| && ProducedBy(p, codec, number, es[1..][i]);
        assert es[i + 1] == es[1..][i];
      }
    }
  }

  /**
   * Every document of a block's response comes from a write of one of its
   * endorser transactions: it carries the block number, that transaction's
   * channel id, transaction id and millisecond date, and the map it sits in
   * agrees with the write's delete flag.
   */
  lemma BlockProvenance(codec: JsonCodec, b: Block)
    requires BlockToDocuments(codec, b).Success?
    ensures var out := BlockToDocuments(codec, b).value;
      && (forall k :: k in out.toAdd ==>
            exists i :: 0 <= i < |b.entries| && ProducedBy(Placement(out.toAdd[k], false), codec, b.number, b.entries[i]))
      && (forall k :: k in out.toRemove ==>
            exists i :: 0 <= i < |b.entries| && ProducedBy(Placement(out.toRemove[k], true), codec, b.number, b.entries[i]))
  {
    var out := BlockToDocuments(codec, b).value;
    BlockToDocumentsIsFold(codec, b);
    var ps := BlockDocs(codec, b.number, b.entries).value;
    BlockDocsProvenance(codec, b.number, b.entries);
    forall k | k in out.toAdd
      ensures exists i :: 0 <= i < |b.entries| && ProducedBy(Placement(out.toAdd[k], false), codec, b.number, b.entries[i])
    {
      LastWriteWins(EmptyResponse, ps, k);
      var j := LastIndex(ps, k);
      assert ps[j] == Placement(out.toAdd[k], false) && ps[j] in ps;
    }
    forall k | k in out.toRemove
      ensures exists i :: 0 <= i < |b.entries| && ProducedBy(Placement(out.toRemove[k], true), codec, b.number, b.entries[i])
    {
      LastWriteWins(EmptyResponse, ps, k);
      var j := LastIndex(ps, k);
      assert ps[j] == Placement(out.toRemove[k], true) && ps[j] in ps;
    }
  }

  /** A document produced by an entry carries the entry's and the block's metadata. */
  lemma ProducedByMetadata(p: Placement, codec: JsonCodec, number: nat, e: Entry)
    requires ProducedBy(p, codec, number, e)
    ensures p.doc.blockNumber == number
    ensures p.doc.channelId == e.header.channelId && p.doc.txId == e.header.txId
    ensures p.doc.txDate == MillisOf(e.header.unixNanos)
  {
    var ns :| ns in e.body.nsRwSets && WrittenIn(p, codec, Meta(e.header, number), ns);
    var w :| w in ns.writes && w.isDelete == p.isDelete
      && BuildDocument(codec, Meta(e.header, number), ns.namespace, w) == Some(p.doc);
  }

  // ---------------------------------------------------------------------
  // The repository's own scenario
  // ---------------------------------------------------------------------

  /** The block of the repository's transformation test. */
  function MappingBlock(): Block {
    Block(0, [Tx(ChannelHeader(EndorserTransaction, "mychannel", "12", 0),
                 RwSet([NsRwSet("fabcar", [KvWrite("K1", false, "k2Bytes"), KvWrite("K2", true, "")])]))])
  }

  /** The document the repository's transformation test expects for `key`. */
  function MappingDoc(key: string, base: Object): Document {
    Document(0, "12", 0, "mychannel", InjectReserved(base, "12", 0, key), "fabcar", key)
  }

  /**
   * One endorser transaction writes K1 with a JSON object and deletes K2:
   * K1 is the only added key and K2 the only removed one, both documents
   * carry the transaction's id and channel, and K1's data without the
   * reserved fields is the object written.
   */
  lemma MappingExample(codec: JsonCodec, obj: Object)
    requires codec.parse("k2Bytes") == ParsedObject(obj) && codec.parse("") == NotObject
    requires forall f :: f in obj ==> !IsReserved(f)
    ensures BlockToDocuments(codec, MappingBlock()) ==
      Success(Response(map["K1" := MappingDoc("K1", obj)], map["K2" := MappingDoc("K2", map[ValueField := JString("")])]))
    ensures StripReserved(MappingDoc("K1", obj).data) == obj
  {
    MappingWrites(codec, obj);
    SingleWriteSetBlock(codec, MappingBlock());
    StripInjected(obj, "12", 0, "K1");
  }

  /** The test's loop over its two writes. */
  lemma MappingWrites(codec: JsonCodec, obj: Object)
    requires codec.parse("k2Bytes") == ParsedObject(obj) && codec.parse("") == NotObject
    ensures var tx := MappingBlock().entries[0];
      PlaceWrites(EmptyResponse, codec, Meta(tx.header, 0), "fabcar", tx.body.nsRwSets[0].writes) ==
      Success(Response(map["K1" := MappingDoc("K1", obj)], map["K2" := MappingDoc("K2", map[ValueField := JString("")])]))
  {
    var tx := MappingBlock().entries[0];
    var meta := Meta(tx.header, 0);
    var ws := tx.body.nsRwSets[0].writes;
    var d1, d2 := MappingDoc("K1", obj), MappingDoc("K2", map[ValueField := JString("")]);
    MappingDocs(codec, obj);
    PlaceWritesStep(EmptyResponse, codec, meta, "fabcar", ws, d1);
    var r1 := Place(EmptyResponse, Placement(d1, false));
    assert ws[1..][0] == KvWrite("K2", true, "") && ws[1..][1..] == [];
    PlaceWritesStep(r1, codec, meta, "fabcar", ws[1..], d2);
    PlaceTwo(d1, d2);
  }

  lemma MappingDocs(codec: JsonCodec, obj: Object)
    requires codec.parse("k2Bytes") == ParsedObject(obj) && codec.parse("") == NotObject
    ensures var meta := Meta(MappingBlock().entries[0].header, 0);
      && BuildDocument(codec, meta, "fabcar", KvWrite("K1", false, "k2Bytes")) == Some(MappingDoc("K1", obj))
      && BuildDocument(codec, meta, "fabcar", KvWrite("K2", true, "")) == Some(MappingDoc("K2", map[ValueField := JString("")]))
  {
    var meta := Meta(MappingBlock().entries[0].header, 0);
    assert MillisOf(0) == 0;
    assert meta == TxMeta("mychannel", "12", 0, 0);
    BuildPlainKey(codec, meta, "fabcar", KvWrite("K1", false, "k2Bytes"), obj);
    BuildPlainKey(codec, meta, "fabcar", KvWrite("K2", true, ""), map[ValueField := JString("")]);
  }

  /** A block of one endorser transaction with one write set is that write set's loop. */
  lemma SingleWriteSetBlock(codec: JsonCodec, b: Block)
    requires |b.entries| == 1 && b.entries[0].Tx? && b.entries[0].header.headerType == EndorserTransaction
    requires b.entries[0].body.RwSet? && |b.entries[0].body.nsRwSets| == 1
    ensures var tx := b.entries[0]; var rw := tx.body.nsRwSets[0];
      BlockToDocuments(codec, b) == PlaceWrites(EmptyResponse, codec, Meta(tx.header, b.number), rw.namespace, rw.writes)
  {
    var tx := b.entries[0];
    var rw := tx.body.nsRwSets[0];
    var res := PlaceWrites(EmptyResponse, codec, Meta(tx.header, b.number), rw.namespace, rw.writes);
    assert tx.body.nsRwSets[1..] == [];
    assert b.entries[1..] == [];
    if res.Success? {
      assert PlaceNamespaces(res.value, codec, Meta(tx.header, b.number), []) == res;
      assert PlaceEntries(res.value, codec, b.number, []) == res;
    }
  }

  lemma PlaceTwo(d1: Document, d2: Document)
    requires d1.primaryKey == "K1" && d2.primaryKey == "K2"
    ensures Place(Place(EmptyResponse, Placement(d1, false)), Placement(d2, true)) == Response(map["K1" := d1], map["K2" := d2])
  {
    assert "K1" != "K2";
    var r1 := Place(EmptyResponse, Placement(d1, false));
    assert r1 == Response(map["K1" := d1], map[]);
  }
}
